=== FILE: README.md ===
# Registry topic resolution, in Dafny

This is a model of the pure helpers in `src/helpers/misc.js` of chewie. Chewie is a documentation generator that clones many documentation "topics" listed in a registry. Each topic and each registry entry is identified by a `name` and a `type`.

The helpers do the following:

- decide which registry entries a run works on:
  - by wildcard selection (`getTopicsByWildcard`, `_isMatchElement`, `_matchWildcardCondition`);
  - or by an explicit list compared on normalised names (`registryShrink`, `trimAdvanced`);
- extract the topic types named on the command line (`uniqTopicTypes`);
- compute output paths (`checkExtension`, `changeFileName`, `prepareOutdatedPaths`).

The modules follow the source:

- `JsStrings` (`js_strings.dfy`) covers the parts of JavaScript's string and array API the helpers use:
  - `split` on one character;
  - `join`;
  - `indexOf` with a start position.

  It also defines `LastIndexOf`, the position of the last occurrence of a character. The helpers never call `lastIndexOf`; `LastIndexOf` is the reference definition that `OutputPaths.ChangeFileNameKeepsDirectory` compares `changeFileName` against.
- `Normalizer` (`normalizer.dfy`) is `trimAdvanced`.
- `Wildcard` (`wildcard.dfy`) is `_matchWildcardCondition`. It has an executable matcher, `Matches`, and an independent reference semantics of the anchored pattern, `MatchesSegments`.
- `Topics` (`topics.dfy`) holds the records: `Topic` is `{name, type}` and `RegistryEntry` is an entry with its metadata. `type` is a Dafny keyword, so the field is called `topicType`.
- `Selector` (`selector.dfy`) is `_isMatchElement` and `getTopicsByWildcard`.
- `Shrinker` (`shrinker.dfy`) is `registryShrink`. Its two log lines are returned as values.
- `TopicTypes` (`topic_types.dfy`) is `uniqTopicTypes`.
- `OutputPaths` (`output_paths.dfy`) covers `checkExtension`, `changeFileName` and `prepareOutdatedPaths`. The platform's path separator is a parameter.

JavaScript falsy arguments are modelled as follows:

- a missing message, destination or topic is modelled as the empty string `""`;
- a missing or non-array `independentSections` is modelled as an empty list.

## Model

| member | source | states |
|---|---|---|
| JsStrings.Split | src/helpers/misc.js:78 | `split` on one character returns at least one piece, even for the empty string |
| JsStrings.SplitPiecesAvoidSeparator | src/helpers/misc.js:78 | no piece of a split contains the separator |
| JsStrings.SplitCons | src/helpers/misc.js:78 | a leading separator starts a new empty piece; any other leading character joins the first piece |
| JsStrings.Join | src/helpers/misc.js:82 | `Array.prototype.join`, also used by the `${array}` rendering in the log lines at 63 and 65; characterised by `JoinSplit`, `SplitJoin` and `JoinSnoc` |
| JsStrings.JoinSplit | src/helpers/misc.js:78-82 | joining the pieces of a split with the separator gives the original string back |
| JsStrings.SplitJoin | src/helpers/misc.js:78-82 | splitting a non-empty list of pieces joined with the separator gives the pieces back, when none of them contains the separator (the empty list joins to `""`, which splits to `[""]`); used for `changeFileName`'s components and for the comma-joined list in the error line at 63 |
| JsStrings.SplitAroundSeparator | src/helpers/misc.js:78 | splitting at one occurrence of the separator splits the two sides independently |
| JsStrings.SplitWithoutSeparator | src/helpers/misc.js:78 | a string without the separator splits into itself alone |
| JsStrings.JoinSnoc | src/helpers/misc.js:81-82 | joining after appending a piece appends the separator and the piece |
| JsStrings.SplitFirstPiece | src/helpers/misc.js:155 | the first piece of a split is the string up to its first separator, or the whole string if it has none |
| JsStrings.IndexOf | src/helpers/misc.js:72 | `indexOf(sub, from)` returns the first occurrence at or after the start position clamped to the string, or -1 when there is none |
| JsStrings.LastIndexOf | src/helpers/misc.js:76-85 | reference definition for `changeFileName`'s cut: -1 exactly when the character is absent, otherwise a position of the character with none after it |
| Normalizer.KeepWordOrHyphen | src/helpers/misc.js:15 | the `replace(/([^\w-])/g, '')` filter keeps only `[A-Za-z0-9_-]` and never lengthens the string |
| Normalizer.KeepWordOrHyphenChars | src/helpers/misc.js:15 | a character survives the filter exactly when it occurs in the input and is in `[\w-]` |
| Normalizer.ToLower | src/helpers/misc.js:15 | `toLowerCase`; characterised by `ToLowerHasNoCapitals` and `ToLowerPointwise` |
| Normalizer.ToLowerHasNoCapitals | src/helpers/misc.js:15 | `toLowerCase` leaves no ASCII capital |
| Normalizer.ToLowerPointwise | src/helpers/misc.js:15 | without U+0130, lower-casing keeps the length and maps each character on its own |
| Normalizer.TrimAdvanced | src/helpers/misc.js:13-16 | a normalised name consists only of small ASCII letters, digits, `_` and `-` |
| Normalizer.TrimAdvancedFixedPoints | src/helpers/misc.js:13-16 | `trimAdvanced` leaves a name unchanged exactly when the name is already in that form |
| Normalizer.TrimAdvancedIdempotent | src/helpers/misc.js:13-16 | normalising twice is normalising once |
| Normalizer.TrimAdvancedConcat | src/helpers/misc.js:15 | the normal form of a concatenation is the concatenation of the normal forms |
| Normalizer.TrimAdvancedIgnoresCase | src/helpers/misc.js:15 | names that differ only in letter case have the same normal form |
| Normalizer.TrimAdvancedSeparator | src/helpers/misc.js:15 | a character outside `[A-Za-z0-9_-]` (other than U+0130 and U+212A) normalises to nothing |
| Normalizer.TrimAdvancedIgnoresSeparator | src/helpers/misc.js:15 | inserting such a character into a name does not change its normal form |
| Normalizer.TrimAdvancedDropsPunctuation | src/helpers/misc.js:13-16 | `My-Topic_1!` normalises to `my-topic_1` |
| Normalizer.TrimAdvancedTupacIpsum | src/helpers/misc.js:13-16 | `Tupac Ipsum` and `tupac ipsum` both normalise to `tupacipsum` |
| Wildcard.Matches | src/helpers/misc.js:193-197 | a rule without `*` accepts exactly the string equal to it (the pattern is anchored at both ends) |
| Wildcard.MatchesIffSegments | src/helpers/misc.js:193-197 | the matcher accepts a string exactly when the anchored pattern does: the star-separated segments appear in order, the first at the start and the last at the end, with runs free of line terminators between them |
| Wildcard.MatchesLeadingStar | src/helpers/misc.js:194-196 | a leading `.*` consumes some prefix free of line terminators, after which the rest of the rule matches |
| Wildcard.StarMatchesAnyLine | src/helpers/misc.js:193-197 | the rule `*` accepts exactly the strings without a line terminator |
| Wildcard.PrefixStarMatches | src/helpers/misc.js:193-197 | `p*` accepts exactly the strings that start with `p` and continue without a line terminator |
| Wildcard.ServiceStarExample | src/helpers/misc.js:193-197 | `service*` accepts `serviceOne` and rejects `toolOne` |
| Selector.IsMatchElement | src/helpers/misc.js:182-184 | an entry matches a topic exactly when its name and its type are each accepted by the topic's anchored pattern |
| Topics.Project | src/helpers/misc.js:30 | `{ name: el.name, type: el.type }`, the pair pushed for a matching entry; its use is stated by `Selector.SelectForMembership` |
| Selector.LiteralTopicMatch | src/helpers/misc.js:182-184 | a topic without stars matches exactly the entries whose `{name, type}` equals it |
| Selector.SelectFor | src/helpers/misc.js:29-31 | the inner loop keeps one projection per matching entry |
| Selector.SelectForMembership | src/helpers/misc.js:29-31 | a topic's group holds the projection of every entry the topic matches, and nothing else |
| Selector.SelectForConcat | src/helpers/misc.js:29-31 | within a topic's group the registry order is kept |
| Selector.SelectMatches | src/helpers/misc.js:29-31 | the inner `registry.forEach` computes the topic's group |
| Selector.TopicsByWildcard | src/helpers/misc.js:23-36 | the output length is the sum, over the topics, of their match counts, so duplicates add up |
| Selector.TopicsByWildcardConcat | src/helpers/misc.js:27-33 | the output is grouped by topic, in topic order |
| Selector.TopicsByWildcardMembership | src/helpers/misc.js:23-36 | a pair is in the output exactly when it is the projection of a registry entry that some topic matches |
| Selector.TopicsByWildcardSound | src/helpers/misc.js:23-36 | every output pair is the projection of a registry entry that some topic matches |
| Selector.TopicsByWildcardComplete | src/helpers/misc.js:23-36 | every registry entry a topic matches has its projection in the output |
| Selector.RepeatedTopicRepeatsSelection | src/helpers/misc.js:27-33 | a topic requested twice yields its group twice |
| Selector.GetTopicsByWildcard | src/helpers/misc.js:23-36 | the nested loops compute the grouped selection, and its length is the total match count |
| Shrinker.WhereMembership | src/helpers/misc.js:58 | `_.where` keeps exactly the entries whose name and type equal the topic's as written |
| Shrinker.SameTopic | src/helpers/misc.js:54 | the scan's test: equal normalised names and identical types; used by `CollectMembership` |
| Shrinker.Where | src/helpers/misc.js:58 | `_.where(shrinkedRegistry, topic)`; characterised by `WhereMembership` |
| Shrinker.Collect | src/helpers/misc.js:53-57 | the inner `registry.forEach`; characterised by `CollectMembership` and `CollectCount` |
| Shrinker.ShrinkEntries | src/helpers/misc.js:52-57 | the entries pushed by the two loops; characterised by `ShrinkEntriesSound`, `ShrinkEntriesComplete`, `ShrinkEntriesCount` and `ShrinkTopicMajor` |
| Shrinker.CollectMembership | src/helpers/misc.js:53-57 | a topic's scan collects exactly the registry entries with the same normalised name and the identical type |
| Shrinker.CollectCount | src/helpers/misc.js:53-57 | the scan collects one entry per registry entry the topic asks for |
| Shrinker.ShrinkEntriesCount | src/helpers/misc.js:52-61 | the result holds as many entries as the topics ask for in total |
| Shrinker.RegistryShrink | src/helpers/misc.js:45-68 | every requested topic name is filed exactly once, as existing or as not existing |
| Shrinker.ShrinkEntriesSound | src/helpers/misc.js:52-61 | every returned entry comes from the registry and is asked for by some requested topic |
| Shrinker.ShrinkEntriesComplete | src/helpers/misc.js:52-61 | every registry entry a requested topic asks for is returned |
| Shrinker.ShrinkTopicMajor | src/helpers/misc.js:52-57 | the returned entries are grouped by topic in topic order, with duplicates kept |
| Shrinker.RegistryShrinkStep | src/helpers/misc.js:52-61 | filing one more topic appends its scan to the entries and adds its name to exactly one of the two lists, chosen by `_.where` on the extended entries |
| Shrinker.WhereFindsExactEntry | src/helpers/misc.js:58-60 | the `_.where` test on the accumulated result succeeds exactly when the registry holds an entry with the topic's name and type as written |
| Shrinker.ShrinkReportsExactPresence | src/helpers/misc.js:52-61 | topic names are filed in order, as existing exactly when an entry with that name and type as written is in the registry |
| Shrinker.NormalisedMatchReportedMissing | src/helpers/misc.js:53-60 | a topic that reaches its entry only through normalisation is cloned but filed as not existing |
| Shrinker.TupacIpsumReportedMissing | src/helpers/misc.js:45-68 | asking for `Tupac Ipsum` when the registry spells it `tupac ipsum` returns the entry and reports the topic as not existing |
| Shrinker.UnknownTopicReportedMissing | src/helpers/misc.js:45-68 | a topic no entry answers to contributes nothing and is reported as not existing |
| Shrinker.RegistryShrinkCorrected | src/helpers/misc.js:52-61 | the corrected filing returns the same entries and files every topic exactly once |
| Shrinker.CollectNonEmptyIff | src/helpers/misc.js:53-57 | a topic's scan finds something exactly when some registry entry answers to it |
| Shrinker.CorrectedReportsNormalisedPresence | src/helpers/misc.js:58-60 | with the corrected filing, a topic is existing exactly when it contributed an entry to the result |
| Shrinker.CorrectedNormalisedMatchReported | src/helpers/misc.js:58-60 | with the corrected filing, a normalised-only match is reported as existing |
| Shrinker.NoNormalisedMatchListed | src/helpers/misc.js:58-60 | the list of topics with no registry entry is non-empty exactly when some requested topic has no entry |
| Shrinker.CorrectedLogFlagsOnlyUnknownTopics | src/helpers/misc.js:63 | with the corrected filing, the error line appears exactly when some requested topic has no registry entry at all |
| Shrinker.ShrinkLog | src/helpers/misc.js:63-65 | the error line appears exactly when some topic is filed as not existing, and the warning listing the existing topics always comes last |
| Shrinker.ShrinkLogListsMissingNames | src/helpers/misc.js:63 | when no name contains a comma, the error line's comma-separated list splits back into the names filed as not existing |
| Shrinker.ScanRegistry | src/helpers/misc.js:53-57 | the inner loop collects the entries the topic asks for, in registry order |
| Shrinker.RegistryShrinkWithLog | src/helpers/misc.js:45-68 | the nested loops and the two log calls compute the modelled result and log lines |
| Shrinker.FileTopic | src/helpers/misc.js:52-61 | one pass of the outer loop extends the result for the topics so far by the next topic |
| Shrinker.ShrinkLogLines | src/helpers/misc.js:63-65 | the two log calls produce the modelled log lines |
| TopicTypes.TypeOfToken | src/helpers/misc.js:155 | `el.split(':')[0]` is the token up to its first colon, or the whole token if it has none |
| TopicTypes.TokenTypes | src/helpers/misc.js:155 | the `.map((el) => el.split(':')[0])`; characterised by `TokenTypesMembership` |
| TopicTypes.Uniq | src/helpers/misc.js:155 | `_.uniq` has no duplicates and keeps exactly the values of its input |
| TopicTypes.UniqKeepsFirstOccurrenceOrder | src/helpers/misc.js:155 | the kept values appear in the order of their first occurrences |
| TopicTypes.UniqOfDistinct | src/helpers/misc.js:155 | a list without duplicates is left unchanged |
| TopicTypes.TokenTypesMembership | src/helpers/misc.js:155 | a type is among the tokens' types exactly when some token carries it |
| TopicTypes.TypeOfPair | src/helpers/misc.js:155 | the type of `kind:name` is `kind` when `kind` has no colon |
| TopicTypes.MessageTypes | src/helpers/misc.js:153-155 | the message's types have no duplicates, and there are none exactly when the message is empty |
| TopicTypes.UniqTopicTypes | src/helpers/misc.js:152-161 | the result ends with the independent sections as given, is preceded by types without duplicates, and is exactly those sections when there is no message |
| TopicTypes.UniqTopicTypesContents | src/helpers/misc.js:152-161 | a type is listed before the independent sections exactly when some token of a non-empty message carries it |
| TopicTypes.UniqTopicTypesRepeatedType | src/helpers/misc.js:147-161 | a message with the same type twice around another lists the two types once each, in order of first appearance |
| TopicTypes.SplitThreeTokens | src/helpers/misc.js:155 | three comma-free tokens joined with commas split back into the three tokens |
| TopicTypes.UniqOfThree | src/helpers/misc.js:155 | `_.uniq([a, b, a])` is `[a, b]` for different `a` and `b` |
| TopicTypes.UniqTopicTypesExample | src/helpers/misc.js:147-148 | `services:serviceOne,tools:toolOne,services:serviceTwo` gives `services, tools` |
| TopicTypes.IndependentSectionsKeptAsGiven | src/helpers/misc.js:156-158 | independent sections are appended even when the message already names them |
| OutputPaths.CheckExtension | src/helpers/misc.js:71-73 | `checkExtension` holds exactly when the path ends with the string |
| OutputPaths.SearchFromSuffixStart | src/helpers/misc.js:72 | the search from `path.length - str.length` finds something exactly when the path ends with `str` |
| OutputPaths.CheckExtensionOfAppended | src/helpers/misc.js:71-73 | a path ends with what was appended to it |
| OutputPaths.ChangeFileName | src/helpers/misc.js:76-85 | `changeFileName`; characterised by `ChangeFileNameKeepsDirectory`, `ChangeFileNameComponents` and `ChangeFileNameTwice` |
| OutputPaths.ChangeFileNameKeepsDirectory | src/helpers/misc.js:76-85 | the result is the path up to and including its last separator followed by the new name, or the new name alone when the path has no separator |
| OutputPaths.ChangeFileNameComponents | src/helpers/misc.js:76-85 | when the new name has no separator, the result read as components is the path's components with the last one replaced by the new name |
| OutputPaths.ChangeFileNameTwice | src/helpers/misc.js:76-85 | when the first name has no separator, renaming twice is renaming once to the second name |
| OutputPaths.PrepareOutdatedPaths | src/helpers/misc.js:170-179 | there are no paths exactly when the destination or the topic is empty; otherwise both paths end in `/index.html`, a forward slash follows the destination, the topic can be read back from the public path, and the internal path is the public one with `/internal` inserted after the destination |
| OutputPaths.PrepareOutdatedPathsExact | src/helpers/misc.js:173-174 | for a non-empty destination and topic the paths are exactly `dest/topic/index.html` and `dest/internal/topic/index.html`, with forward slashes |

## Left out

- `getRegistry`, `dirCheckSync`, `deleteFolderAsync` and `asyncTaskCreator` are left out: they read files, stat directories, delete folders and build callbacks. Modelling them would mean modelling the file system.
- The logger is left out. `registryShrink`'s two log calls are returned as `LogLine` values, not written anywhere.
- `systemPath.sep` is a parameter of `ChangeFileName`, not the host platform's separator.
- Wildcard.Matches: it requires `IsGlobRule`, so it covers only rules whose one special character is `*`. A rule containing another regular-expression metacharacter (`\ ^ $ . | ? + ( ) [ ] { }`) either compiles to a pattern with its full regular-expression meaning or, like `(`, `[`, `+` or `?` on their own, makes the `RegExp` constructor at src/helpers/misc.js:196 throw a `SyntaxError` that nothing in `_isMatchElement` or `getTopicsByWildcard` catches. Neither the other meanings nor the throw are modelled.
- Shrinker.Where: a requested topic is assumed to carry exactly `name` and `type`. `_.where` (src/helpers/misc.js:58) compares every own property of the topic object, so a topic with any other key, such as `area` or `source`, can find no entry where the model finds one.
- Normalizer.LowerSimple: this and `LowerChar` lower-case ASCII capitals, U+0130 and U+212A. Every other character is kept as it is. For other non-ASCII letters this differs from `toLowerCase`, but only on characters the `[\w-]` filter then drops in either form, so `TrimAdvanced` is exact.
- Strings are sequences of characters. Lone UTF-16 surrogates, and `toLowerCase` mappings that depend on the surrounding characters, are not modelled.
- Non-string arguments and non-array collections are not modelled beyond the falsy cases described above.
- The integration test (`test/integration/cloneDocuSources.spec.js`) is left out: it clones repositories over the network.

## Notes on behaviour

- A `*` in a rule becomes `.*` (src/helpers/misc.js:194). In a JavaScript regular expression without the `s` flag, `.` does not match `\n`, `\r`, U+2028 or U+2029. So the rule `*` does not accept every string: it accepts exactly the strings without such a character (`Wildcard.StarMatchesAnyLine`).
- `registryShrink` tells its caller which topics it found. It logs the missing ones as "The following topic does not exist in the registry" (src/helpers/misc.js:63), and the found ones as "only the following topics will get cloned" (src/helpers/misc.js:65). Both messages say that a topic is listed as found when its own scan collected an entry. The code does something else: it tests `_.where` on the accumulated result, which compares name and type as written (src/helpers/misc.js:58-60). The model follows the code, and the finding below comes from this mismatch.

## Findings

| source | as written | input that shows it | evidently intended | confidence | as-written member | corrected member |
|---|---|---|---|---|---|---|
| src/helpers/misc.js:58-60 | a topic is filed as existing only if `_.where(shrinkedRegistry, topic)` finds an entry whose name equals the topic's name as written, although entries are collected by normalised name | registry `[{name: "tupac ipsum", type: "overview"}]`, topics `[{name: "Tupac Ipsum", type: "overview"}]`: the entry is returned, but "Tupac Ipsum" is logged as not existing and left out of the list of topics that will be cloned | a topic whose scan collected an entry is reported as existing | not executed; follows from the definition of `_.where` | Shrinker.TupacIpsumReportedMissing | Shrinker.CorrectedReportsNormalisedPresence |

=== FILE: js_strings.dfy ===
/**
 * The parts of JavaScript's string and array API the registry helpers are
 * built from, stated over `string` (a `seq<char>`): `split` with a
 * one-character separator, `Array.prototype.join` and `indexOf` with a
 * start position. `LastIndexOf` is not one of them: it is the reference
 * against which the result of `changeFileName` is described.
 */
module JsStrings {

  /** `s.split(sep)` for a one-character separator: the pieces between the
      separators, left to right. There is always at least one piece. */
  function Split(s: string, sep: char): (parts: seq<string>)
    ensures |parts| >= 1
    decreases |s|
  {
    if |s| == 0 then [""]
    else
      var rest := Split(s[1..], sep);
      if s[0] == sep then [""] + rest
      else [[s[0]] + rest[0]] + rest[1..]
  }

  /** No piece of a split contains the separator. */
  lemma {:induction false} SplitPiecesAvoidSeparator(s: string, sep: char)
    ensures forall i :: 0 <= i < |Split(s, sep)| ==> sep !in Split(s, sep)[i]
    decreases |s|
  {
    if |s| > 0 {
      SplitPiecesAvoidSeparator(s[1..], sep);
      var rest := Split(s[1..], sep);
      if s[0] != sep {
        assert sep !in rest[0];
        assert sep !in [s[0]] + rest[0];
      }
    }
  }

  /** `parts.join(sep)`. */
  function Join(parts: seq<string>, sep: string): string
    decreases |parts|
  {
    if |parts| == 0 then ""
    else if |parts| == 1 then parts[0]
    else parts[0] + sep + Join(parts[1..], sep)
  }

  lemma JoinConsHead(c: char, p: string, tail: seq<string>, sep: string)
    ensures Join([[c] + p] + tail, sep) == [c] + Join([p] + tail, sep)
  {
    if |tail| == 0 {
      assert [[c] + p] + tail == [[c] + p];
      assert [p] + tail == [p];
    } else {
      assert ([[c] + p] + tail)[1..] == tail;
      assert ([p] + tail)[1..] == tail;
    }
  }

  /** Joining the pieces of `s.split(sep)` with `sep` gives `s` back. */
  lemma {:induction false} JoinSplit(s: string, sep: char)
    ensures Join(Split(s, sep), [sep]) == s
    decreases |s|
  {
    if |s| > 0 {
      var rest := Split(s[1..], sep);
      JoinSplit(s[1..], sep);
      assert s == [s[0]] + s[1..];
      if s[0] == sep {
        assert ([""] + rest)[1..] == rest;
      } else {
        JoinConsHead(s[0], rest[0], rest[1..], [sep]);
        assert [rest[0]] + rest[1..] == rest;
      }
    }
  }

  /** A string without the separator is split into itself alone. */
  lemma {:induction false} SplitWithoutSeparator(s: string, sep: char)
    requires sep !in s
    ensures Split(s, sep) == [s]
    decreases |s|
  {
    if |s| > 0 {
      assert sep !in s[1..];
      SplitWithoutSeparator(s[1..], sep);
      assert s == [s[0]] + s[1..];
    }
  }

  /** One step of `Split`: the first character either starts a new piece or
      joins the first piece of the rest. */
  lemma SplitCons(c: char, rest: string, sep: char)
    ensures Split([c] + rest, sep) ==
      if c == sep then [""] + Split(rest, sep)
      else [[c] + Split(rest, sep)[0]] + Split(rest, sep)[1..]
  {
    var s := [c] + rest;
    assert s[0] == c && s[1..] == rest;
  }

  /** Putting `c` in front of the first of the pieces `left + right`. */
  lemma ConsOntoPieces(c: char, left: seq<string>, right: seq<string>)
    requires |left| >= 1
    ensures [[c] + (left + right)[0]] + (left + right)[1..] == ([[c] + left[0]] + left[1..]) + right
  {
    assert (left + right)[0] == left[0];
    assert (left + right)[1..] == left[1..] + right;
  }

  /** The inductive step of `SplitAroundSeparator`: one more character in
      front of the left side. */
  lemma SplitAroundSeparatorStep(c: char, rest: string, sep: char, b: string)
    requires Split(rest + [sep] + b, sep) == Split(rest, sep) + Split(b, sep)
    ensures Split([c] + rest + [sep] + b, sep) == Split([c] + rest, sep) + Split(b, sep)
  {
    assert [c] + rest + [sep] + b == [c] + (rest + [sep] + b);
    SplitCons(c, rest + [sep] + b, sep);
    SplitCons(c, rest, sep);
    if c != sep {
      ConsOntoPieces(c, Split(rest, sep), Split(b, sep));
    }
  }

  /** Splitting at one occurrence of the separator splits the two sides
      independently. */
  lemma {:induction false} SplitAroundSeparator(a: string, sep: char, b: string)
    ensures Split(a + [sep] + b, sep) == Split(a, sep) + Split(b, sep)
    decreases |a|
  {
    if |a| == 0 {
      assert a + [sep] + b == [sep] + b;
      SplitCons(sep, b, sep);
    } else {
      var c, rest := a[0], a[1..];
      assert a == [c] + rest;
      SplitAroundSeparator(rest, sep, b);
      SplitAroundSeparatorStep(c, rest, sep, b);
    }
  }

  /** Splitting pieces joined with the separator gives the pieces back, as
      long as none of them contains the separator. */
  lemma {:induction false} SplitJoin(parts: seq<string>, sep: char)
    requires |parts| >= 1
    requires forall i :: 0 <= i < |parts| ==> sep !in parts[i]
    ensures Split(Join(parts, [sep]), sep) == parts
    decreases |parts|
  {
    var head := parts[0];
    assert sep !in head;
    SplitWithoutSeparator(head, sep);
    if |parts| > 1 {
      var rest := parts[1..];
      assert forall i :: 0 <= i < |rest| ==> sep !in rest[i] by {
        forall i | 0 <= i < |rest|
          ensures sep !in rest[i]
        {
          assert rest[i] == parts[i + 1];
        }
      }
      SplitJoin(rest, sep);
      assert Join(parts, [sep]) == head + [sep] + Join(rest, [sep]);
      SplitAroundSeparator(head, sep, Join(rest, [sep]));
      assert [head] + rest == parts;
    }
  }

  /** Appending one more piece to a join. */
  lemma {:induction false} JoinSnoc(parts: seq<string>, last: string, sep: string)
    requires |parts| >= 1
    ensures Join(parts + [last], sep) == Join(parts, sep) + sep + last
    decreases |parts|
  {
    var ext := parts + [last];
    if |parts| == 1 {
      assert ext[1..] == [last];
    } else {
      assert ext[1..] == parts[1..] + [last];
      JoinSnoc(parts[1..], last, sep);
    }
  }

  /** The first piece of `s.split(sep)` is `s` up to its first separator. */
  lemma {:induction false} SplitFirstPiece(s: string, sep: char)
    ensures var p := Split(s, sep)[0];
      && |p| <= |s| && s[..|p|] == p
      && (|p| == |s| || s[|p|] == sep)
    decreases |s|
  {
    if |s| > 0 {
      var c, rest := s[0], s[1..];
      assert s == [c] + rest;
      SplitCons(c, rest, sep);
      if c != sep {
        SplitFirstPiece(rest, sep);
        var q := Split(rest, sep)[0];
        assert Split(s, sep)[0] == [c] + q;
        assert s[..|q| + 1] == [c] + rest[..|q|];
      }
    }
  }

  /** `sub` occurs in `s` at position `k`. */
  predicate OccursAt(s: string, sub: string, k: int) {
    0 <= k && k + |sub| <= |s| && s[k..k + |sub|] == sub
  }

  /** Where `s.indexOf(sub, from)` starts looking: `from` clamped to `0..|s|`. */
  function SearchStart(s: string, from: int): nat {
    if from < 0 then 0 else if from > |s| then |s| else from
  }

  /** `s.indexOf(sub, from)`: the first position at or after the (clamped)
      start where `sub` occurs, or -1 when there is none. */
  function IndexOf(s: string, sub: string, from: int): (r: int)
    ensures r == -1 || (SearchStart(s, from) <= r && OccursAt(s, sub, r))
    ensures forall k :: SearchStart(s, from) <= k && (r == -1 || k < r) ==> !OccursAt(s, sub, k)
  {
    IndexOfFrom(s, sub, SearchStart(s, from))
  }

  function IndexOfFrom(s: string, sub: string, k: nat): (r: int)
    requires k <= |s|
    ensures r == -1 || (k <= r && OccursAt(s, sub, r))
    ensures forall j :: k <= j && (r == -1 || j < r) ==> !OccursAt(s, sub, j)
    decreases |s| - k
  {
    if k + |sub| > |s| then -1
    else if s[k..k + |sub|] == sub then k
    else IndexOfFrom(s, sub, k + 1)
  }

  /** The position of the last occurrence of `c` in `s`, or -1 when there is
      none. The helpers never call `lastIndexOf`; this is the independent
      description of where `changeFileName` cuts a path. */
  function LastIndexOf(s: string, c: char): (r: int)
    ensures -1 <= r < |s|
    ensures r == -1 <==> c !in s
    ensures r >= 0 ==> r < |s| && s[r] == c && c !in s[r + 1..]
    decreases |s|
  {
    if |s| == 0 then -1
    else if s[|s| - 1] == c then |s| - 1
    else
      var front := s[..|s| - 1];
      var r := LastIndexOf(front, c);
      assert s == front + [s[|s| - 1]];
      assert c in s <==> c in front;
      assert r >= 0 ==> s[r + 1..] == front[r + 1..] + [s[|s| - 1]];
      r
  }
}

=== FILE: normalizer.dfy ===
/**
 * `trimAdvanced`: the canonical form of a topic name used to compare
 * requested topics with registry entries. The name is lower-cased and every
 * character outside `[A-Za-z0-9_-]` (the regular-expression class `[\w-]`)
 * is dropped.
 *
 * The worked examples take their string literals as parameters pinned by
 * `requires`, so the solver keeps them as names and spells them out only in
 * the steps that need their letters.
 */
module Normalizer {

  predicate IsAsciiCapital(c: char) {
    'A' <= c <= 'Z'
  }

  /** `toLowerCase()` on one character that lower-cases to one character:
      ASCII capitals become small letters and U+212A (Kelvin sign) becomes
      `k`. Every other character is kept as it is; for non-ASCII letters that
      differs from `toLowerCase`, but only on characters the filter that
      follows drops in either form. */
  function LowerSimple(c: char): char
  {
    if IsAsciiCapital(c) then (c as int - 'A' as int + 'a' as int) as char
    else if c == '\U{212A}' then 'k'
    else c
  }

  /** `toLowerCase()` on one character. U+0130 (capital I with dot above) is
      the one character whose lower case is two characters, `i` and U+0307;
      together with the Kelvin sign it is the only character outside ASCII
      whose lower case holds an ASCII letter. */
  function LowerChar(c: char): string
  {
    if c == '\U{0130}' then ['i', '\U{0307}'] else [LowerSimple(c)]
  }

  /** `s.toLowerCase()`, character by character. */
  function ToLower(s: string): string
    decreases |s|
  {
    if |s| == 0 then "" else LowerChar(s[0]) + ToLower(s[1..])
  }

  /** Lower-casing leaves no ASCII capital behind. */
  lemma {:induction false} ToLowerHasNoCapitals(s: string)
    ensures forall c :: c in ToLower(s) ==> !IsAsciiCapital(c)
    decreases |s|
  {
    if |s| > 0 {
      ToLowerHasNoCapitals(s[1..]);
    }
  }

  /** Without U+0130, lower-casing maps each character to one character. */
  lemma {:induction false} ToLowerPointwise(s: string)
    requires '\U{0130}' !in s
    ensures |ToLower(s)| == |s|
    ensures forall i :: 0 <= i < |s| ==> ToLower(s)[i] == LowerSimple(s[i])
    decreases |s|
  {
    if |s| > 0 {
      assert '\U{0130}' !in s[1..];
      ToLowerPointwise(s[1..]);
    }
  }

  /** The class `[\w-]`: ASCII letters, digits, underscore and hyphen. */
  predicate IsWordOrHyphen(c: char) {
    'a' <= c <= 'z' || IsAsciiCapital(c) || '0' <= c <= '9' || c == '_' || c == '-'
  }

  /** `s.replace(/([^\w-])/g, '')`: every character outside `[\w-]` removed,
      the others kept in order. */
  function KeepWordOrHyphen(s: string): (r: string)
    ensures forall i :: 0 <= i < |r| ==> IsWordOrHyphen(r[i])
    ensures |r| <= |s|
    decreases |s|
  {
    if |s| == 0 then ""
    else (if IsWordOrHyphen(s[0]) then [s[0]] else []) + KeepWordOrHyphen(s[1..])
  }

  /** The filter keeps exactly the characters of `[\w-]`. */
  lemma {:induction false} KeepWordOrHyphenChars(s: string)
    ensures forall c :: c in KeepWordOrHyphen(s) <==> c in s && IsWordOrHyphen(c)
    decreases |s|
  {
    if |s| > 0 {
      KeepWordOrHyphenChars(s[1..]);
      assert s == [s[0]] + s[1..];
    }
  }

  /** The characters of a normalised name. */
  predicate IsNormalChar(c: char) {
    'a' <= c <= 'z' || '0' <= c <= '9' || c == '_' || c == '-'
  }

  predicate IsNormal(s: string) {
    forall i :: 0 <= i < |s| ==> IsNormalChar(s[i])
  }

  /** `trimAdvanced(name)`: the result consists only of small ASCII letters,
      digits, `_` and `-`. */
  function TrimAdvanced(name: string): (r: string)
    ensures IsNormal(r)
  {
    var lowered := ToLower(name);
    ToLowerHasNoCapitals(name);
    KeepWordOrHyphenChars(lowered);
    var r := KeepWordOrHyphen(lowered);
    assert forall i :: 0 <= i < |r| ==> r[i] in r;
    r
  }

  lemma {:induction false} ToLowerKeepsNormal(s: string)
    requires IsNormal(s)
    ensures ToLower(s) == s
    decreases |s|
  {
    if |s| > 0 {
      ToLowerKeepsNormal(s[1..]);
      assert s == [s[0]] + s[1..];
    }
  }

  lemma {:induction false} KeepWordOrHyphenKeepsNormal(s: string)
    requires IsNormal(s)
    ensures KeepWordOrHyphen(s) == s
    decreases |s|
  {
    if |s| > 0 {
      KeepWordOrHyphenKeepsNormal(s[1..]);
      assert s == [s[0]] + s[1..];
    }
  }

  /** The names `trimAdvanced` leaves unchanged are exactly the normal ones. */
  lemma {:induction false} TrimAdvancedFixedPoints(s: string)
    ensures TrimAdvanced(s) == s <==> IsNormal(s)
  {
    if IsNormal(s) {
      ToLowerKeepsNormal(s);
      KeepWordOrHyphenKeepsNormal(s);
    }
  }

  /** `trimAdvanced` is idempotent. */
  lemma {:induction false} TrimAdvancedIdempotent(s: string)
    ensures TrimAdvanced(TrimAdvanced(s)) == TrimAdvanced(s)
  {
    TrimAdvancedFixedPoints(TrimAdvanced(s));
  }

  lemma {:induction false} ToLowerConcat(a: string, b: string)
    ensures ToLower(a + b) == ToLower(a) + ToLower(b)
    decreases |a|
  {
    if |a| > 0 {
      assert (a + b)[0] == a[0];
      assert (a + b)[1..] == a[1..] + b;
      ToLowerConcat(a[1..], b);
    } else {
      assert a + b == b;
    }
  }

  lemma {:induction false} KeepWordOrHyphenConcat(a: string, b: string)
    ensures KeepWordOrHyphen(a + b) == KeepWordOrHyphen(a) + KeepWordOrHyphen(b)
    decreases |a|
  {
    if |a| > 0 {
      assert (a + b)[0] == a[0];
      assert (a + b)[1..] == a[1..] + b;
      KeepWordOrHyphenConcat(a[1..], b);
    } else {
      assert a + b == b;
    }
  }

  /** `trimAdvanced` works character by character: the normal form of a
      concatenation is the concatenation of the normal forms. */
  lemma TrimAdvancedConcat(a: string, b: string)
    ensures TrimAdvanced(a + b) == TrimAdvanced(a) + TrimAdvanced(b)
  {
    ToLowerConcat(a, b);
    KeepWordOrHyphenConcat(ToLower(a), ToLower(b));
  }

  /** `a` and `b` differ only in the case of their letters (and neither has
      the dotted capital I, whose lower case is two characters). */
  predicate CaseVariants(a: string, b: string) {
    && |a| == |b|
    && '\U{0130}' !in a && '\U{0130}' !in b
    && forall i :: 0 <= i < |a| ==> LowerSimple(a[i]) == LowerSimple(b[i])
  }

  /** Two names that differ only in the case of their letters have the same
      normal form. */
  lemma TrimAdvancedIgnoresCase(a: string, b: string)
    requires CaseVariants(a, b)
    ensures TrimAdvanced(a) == TrimAdvanced(b)
  {
    ToLowerPointwise(a);
    ToLowerPointwise(b);
    assert ToLower(a) == ToLower(b);
  }

  /** A character outside `[A-Za-z0-9_-]`, other than the two non-ASCII
      capitals that lower-case to ASCII letters, normalises to nothing. */
  lemma TrimAdvancedSeparator(c: char)
    requires !IsWordOrHyphen(c) && c != '\U{0130}' && c != '\U{212A}'
    ensures TrimAdvanced([c]) == ""
  {
    assert [c][1..] == [];
    assert ToLower([c]) == [c];
  }

  /** Such a character makes no difference to the normal form of a name. */
  lemma TrimAdvancedIgnoresSeparator(a: string, c: char, b: string)
    requires !IsWordOrHyphen(c) && c != '\U{0130}' && c != '\U{212A}'
    ensures TrimAdvanced(a + [c] + b) == TrimAdvanced(a + b)
  {
    TrimAdvancedSeparator(c);
    TrimAdvancedConcat(a, [c]);
    TrimAdvancedConcat(a + [c], b);
    TrimAdvancedConcat(a, b);
  }

  /** Worked example: case and punctuation disappear; `-`, `_` and digits
      stay. */
  lemma TrimAdvancedDropsPunctuation(name: string)
    requires name == "My-Topic_1!"
    ensures TrimAdvanced(name) == "my-topic_1"
  {
    var kept, lowered := DropsPunctuationSpelling(name);
    TrimAdvancedIgnoresSeparator(kept, '!', "");
    assert kept + "" == kept;
    TrimAdvancedIgnoresCase(kept, lowered);
    TrimAdvancedFixedPoints(lowered);
  }

  /** `My-Topic_1!` is `My-Topic_1` followed by `!`, and `My-Topic_1` is a
      case variant of the normal name `my-topic_1`. */
  lemma DropsPunctuationSpelling(name: string) returns (kept: string, lowered: string)
    requires name == "My-Topic_1!"
    ensures kept + ['!'] + "" == name
    ensures CaseVariants(kept, lowered) && IsNormal(lowered) && lowered == "my-topic_1"
  {
    kept, lowered := "My-Topic_1", "my-topic_1";
  }

  /** Worked example: a capitalised name with a space and its lower-case
      spelling share one normal form. */
  lemma TrimAdvancedTupacIpsum(capitalised: string, lower: string)
    requires capitalised == "Tupac Ipsum" && lower == "tupac ipsum"
    ensures TrimAdvanced(capitalised) == "tupacipsum"
    ensures TrimAdvanced(lower) == "tupacipsum"
  {
    var a, b, c, d := TupacSpelling(capitalised, lower);
    TrimAdvancedIgnoresSeparator(a, ' ', b);
    TrimAdvancedIgnoresSeparator(c, ' ', d);
    TrimAdvancedIgnoresCase(a + b, c + d);
    TrimAdvancedFixedPoints(c + d);
  }

  /** Both spellings are two words around a space; the words are case
      variants of each other and the lower-case ones are normal. */
  lemma TupacSpelling(capitalised: string, lower: string) returns (a: string, b: string, c: string, d: string)
    requires capitalised == "Tupac Ipsum" && lower == "tupac ipsum"
    ensures a + [' '] + b == capitalised && c + [' '] + d == lower
    ensures CaseVariants(a + b, c + d) && IsNormal(c + d) && c + d == "tupacipsum"
  {
    a, b, c, d := "Tupac", "Ipsum", "tupac", "ipsum";
  }
}

=== FILE: output_paths.dfy ===
/**
 * The path helpers: `checkExtension` (does a path end with a given string),
 * `changeFileName` (replace the last component of a path) and
 * `prepareOutdatedPaths` (the two `index.html` files an independent
 * generation of one topic replaces). The platform's path separator is a
 * parameter.
 */
module OutputPaths {
  import opened JsStrings

  /** `path.indexOf(str, path.length - str.length) !== -1`: the search starts
      where `str` would have to begin for `path` to end with it, so the test
      succeeds exactly when `path` ends with `str`. A `str` longer than the
      path moves the start to 0, where it cannot occur either. */
  function CheckExtension(path: string, str: string): (r: bool)
    ensures r <==> |str| <= |path| && path[|path| - |str|..] == str
  {
    SearchFromSuffixStart(path, str);
    IndexOf(path, str, |path| - |str|) != -1
  }

  /** The only place at or after `|path| - |str|` where `str` fits is
      `|path| - |str|` itself. */
  lemma SearchFromSuffixStart(path: string, str: string)
    ensures IndexOf(path, str, |path| - |str|) != -1 <==> |str| <= |path| && path[|path| - |str|..] == str
  {
    var found := IndexOf(path, str, |path| - |str|);
    if |str| <= |path| {
      assert OccursAt(path, str, |path| - |str|) <==> path[|path| - |str|..] == str;
    }
  }

  /** A path ends with what was appended to it. */
  lemma CheckExtensionOfAppended(base: string, ext: string)
    ensures CheckExtension(base + ext, ext)
  {
    assert (base + ext)[|base|..] == ext;
  }

  /** `changeFileName(path, newFileName)`: split at the separator, drop the
      last piece, append the new name and join again. */
  function ChangeFileName(path: string, newFileName: string, sep: char): string
  {
    var splitted := Split(path, sep);
    Join(splitted[..|splitted| - 1] + [newFileName], [sep])
  }

  /** The result keeps the path up to and including its last separator and
      puts the new name after it; a path without a separator is replaced by
      the new name altogether. */
  lemma ChangeFileNameKeepsDirectory(path: string, newFileName: string, sep: char)
    ensures ChangeFileName(path, newFileName, sep) == path[..LastIndexOf(path, sep) + 1] + newFileName
  {
    var i := LastIndexOf(path, sep);
    var splitted := Split(path, sep);
    if i == -1 {
      SplitWithoutSeparator(path, sep);
      assert splitted[..|splitted| - 1] + [newFileName] == [newFileName];
    } else {
      var dir, file := path[..i], path[i + 1..];
      assert path == dir + [sep] + file;
      SplitAroundSeparator(dir, sep, file);
      SplitWithoutSeparator(file, sep);
      assert splitted == Split(dir, sep) + [file];
      assert splitted[..|splitted| - 1] == Split(dir, sep);
      JoinSnoc(Split(dir, sep), newFileName, [sep]);
      JoinSplit(dir, sep);
      assert path[..i + 1] == dir + [sep];
    }
  }

  /** Seen as a list of components, the result is the path's components with
      the last one replaced, provided the new name has no separator. */
  lemma ChangeFileNameComponents(path: string, newFileName: string, sep: char)
    requires sep !in newFileName
    ensures var parts := Split(path, sep);
            Split(ChangeFileName(path, newFileName, sep), sep) == parts[..|parts| - 1] + [newFileName]
  {
    var parts := Split(path, sep);
    var pieces := parts[..|parts| - 1] + [newFileName];
    SplitPiecesAvoidSeparator(path, sep);
    forall k | 0 <= k < |pieces|
      ensures sep !in pieces[k]
    {
      if k < |parts| - 1 {
        assert pieces[k] == parts[k];
      }
    }
    SplitJoin(pieces, sep);
  }

  /** Renaming twice is renaming once to the second name. */
  lemma ChangeFileNameTwice(path: string, first: string, second: string, sep: char)
    requires sep !in first
    ensures ChangeFileName(ChangeFileName(path, first, sep), second, sep) == ChangeFileName(path, second, sep)
  {
    var parts := Split(path, sep);
    var once := ChangeFileName(path, first, sep);
    ChangeFileNameComponents(path, first, sep);
    var again := Split(once, sep);
    assert again[..|again| - 1] == parts[..|parts| - 1];
  }

  /** The files `prepareOutdatedPaths` names; `{}` when either argument is
      missing. */
  datatype OutdatedPaths = NoPaths | Paths(index: string, indexInternal: string)

  const IndexFile := "/index.html"
  const InternalDir := "/internal"

  /** `prepareOutdatedPaths(dest, topic)`: `dest/topic/index.html` and
      `dest/internal/topic/index.html`, or nothing when the destination or
      the topic is empty. Both paths end in `/index.html`, the internal one is
      the public one with `/internal` inserted after the destination, and the
      topic can be read back from the public path. */
  function PrepareOutdatedPaths(dest: string, topic: string): (r: OutdatedPaths)
    ensures r.NoPaths? <==> dest == "" || topic == ""
    ensures r.Paths? ==> CheckExtension(r.index, IndexFile) && CheckExtension(r.indexInternal, IndexFile)
    ensures r.Paths? ==> |dest| + 1 + |IndexFile| <= |r.index| && r.index[..|dest|] == dest
    ensures r.Paths? ==> r.index[|dest|] == '/'
    ensures r.Paths? ==> r.index[|dest| + 1..|r.index| - |IndexFile|] == topic
    ensures r.Paths? ==> r.indexInternal == dest + InternalDir + r.index[|dest|..]
  {
    if dest == "" || topic == "" then NoPaths
    else
      var index := dest + "/" + topic + IndexFile;
      var indexInternal := dest + InternalDir + "/" + topic + IndexFile;
      CheckExtensionOfAppended(dest + "/" + topic, IndexFile);
      CheckExtensionOfAppended(dest + InternalDir + "/" + topic, IndexFile);
      IndexPathParts(dest, topic, InternalDir, IndexFile);
      Paths(index, indexInternal)
  }

  /** Where the destination, the topic and the file name sit in
      `dest + "/" + topic + file`, and how inserting `dir` after the
      destination changes it. */
  lemma IndexPathParts(dest: string, topic: string, dir: string, file: string)
    ensures var index := dest + "/" + topic + file;
            && |dest| + 1 + |file| <= |index|
            && index[..|dest|] == dest
            && index[|dest|] == '/'
            && index[|dest| + 1..|index| - |file|] == topic
            && dest + dir + "/" + topic + file == dest + dir + index[|dest|..]
  {
    var tail := "/" + topic + file;
    var index := dest + "/" + topic + file;
    assert index == dest + tail;
    assert index[|dest|] == tail[0] == '/';
    assert index[|dest|..] == tail by {
      assert index == dest + tail;
    }
    assert dest + dir + "/" + topic + file == dest + dir + tail;
    assert index[|dest| + 1..|index| - |file|] == topic by {
      assert index == dest + "/" + topic + file;
    }
  }

  /** The two paths spelled out: the public one is
      `dest/topic/index.html` and the internal one
      `dest/internal/topic/index.html`, with a forward slash whatever the
      platform. */
  lemma PrepareOutdatedPathsExact(dest: string, topic: string)
    requires dest != "" && topic != ""
    ensures PrepareOutdatedPaths(dest, topic) ==
      Paths(dest + "/" + topic + "/index.html", dest + "/internal/" + topic + "/index.html")
  {
    var r := PrepareOutdatedPaths(dest, topic);
    assert r == Paths(dest + "/" + topic + IndexFile, dest + InternalDir + "/" + topic + IndexFile);
    assert InternalDir + "/" == "/internal/";
    assert dest + InternalDir + "/" + topic + IndexFile == dest + (InternalDir + "/") + topic + IndexFile;
  }
}

=== FILE: selector.dfy ===
/**
 * `getTopicsByWildcard` and `_isMatchElement`: select the registry entries
 * whose name and type match the wildcard rules of a requested topic. The
 * outer loop runs over the requested topics, the inner one over the
 * registry, and every match is kept, so an entry selected by two topics
 * appears twice.
 */
module Selector {
  import opened JsStrings
  import opened Wildcard
  import opened Topics

  /** Both rules of a requested topic are glob rules. */
  predicate IsGlobTopic(t: Topic) {
    IsGlobRule(t.name) && IsGlobRule(t.topicType)
  }

  predicate AllGlobTopics(topics: seq<Topic>) {
    forall j :: 0 <= j < |topics| ==> IsGlobTopic(topics[j])
  }

  /** `_isMatchElement(element, topic)`: the entry's name and type are each
      accepted by the anchored pattern compiled from the topic's rule. */
  function IsMatchElement(element: RegistryEntry, topic: Topic): (r: bool)
    requires IsGlobTopic(topic)
    ensures r <==> (MatchesSegments(element.name, Split(topic.name, '*')) &&
                    MatchesSegments(element.topicType, Split(topic.topicType, '*')))
  {
    MatchesIffSegments(element.name, topic.name);
    MatchesIffSegments(element.topicType, topic.topicType);
    Matches(element.name, topic.name) && Matches(element.topicType, topic.topicType)
  }

  /** A topic without stars selects exactly the entries with its name and type. */
  lemma LiteralTopicMatch(element: RegistryEntry, topic: Topic)
    requires IsGlobTopic(topic) && '*' !in topic.name && '*' !in topic.topicType
    ensures IsMatchElement(element, topic) <==> Project(element) == topic
  {
  }

  /** The number of registry entries the topic selects. */
  function MatchCount(registry: seq<RegistryEntry>, topic: Topic): nat
    requires IsGlobTopic(topic)
    decreases |registry|
  {
    if |registry| == 0 then 0
    else MatchCount(registry[1..], topic) + (if IsMatchElement(registry[0], topic) then 1 else 0)
  }

  /** The sum of the match counts over the requested topics. */
  function TotalMatchCount(registry: seq<RegistryEntry>, topics: seq<Topic>): nat
    requires AllGlobTopics(topics)
    decreases |topics|
  {
    if |topics| == 0 then 0
    else TotalMatchCount(registry, topics[..|topics| - 1]) + MatchCount(registry, topics[|topics| - 1])
  }

  /** The inner loop for one topic: the projections of the entries it
      selects, in registry order. */
  function SelectFor(registry: seq<RegistryEntry>, topic: Topic): (r: seq<Topic>)
    requires IsGlobTopic(topic)
    ensures |r| == MatchCount(registry, topic)
    decreases |registry|
  {
    if |registry| == 0 then []
    else
      var last := registry[|registry| - 1];
      var r := SelectFor(registry[..|registry| - 1], topic) + (if IsMatchElement(last, topic) then [Project(last)] else []);
      SelectForCountsFromEnd(registry, topic);
      r
  }

  lemma {:induction false} SelectForCountsFromEnd(registry: seq<RegistryEntry>, topic: Topic)
    requires IsGlobTopic(topic) && |registry| > 0
    ensures MatchCount(registry, topic) ==
      MatchCount(registry[..|registry| - 1], topic) + (if IsMatchElement(registry[|registry| - 1], topic) then 1 else 0)
    decreases |registry|
  {
    if |registry| > 1 {
      var front := registry[..|registry| - 1];
      assert registry[1..][..|registry[1..]| - 1] == front[1..];
      assert registry[1..][|registry[1..]| - 1] == registry[|registry| - 1];
      SelectForCountsFromEnd(registry[1..], topic);
    }
  }

  /** `getTopicsByWildcard(registry, topics)`: the selections of the topics,
      one group per topic in topic order. */
  function TopicsByWildcard(registry: seq<RegistryEntry>, topics: seq<Topic>): (r: seq<Topic>)
    requires AllGlobTopics(topics)
    ensures |r| == TotalMatchCount(registry, topics)
    decreases |topics|
  {
    if |topics| == 0 then []
    else TopicsByWildcard(registry, topics[..|topics| - 1]) + SelectFor(registry, topics[|topics| - 1])
  }

  /** Within one topic's group the registry order is kept: selecting from
      two parts of the registry gives the two selections one after the other. */
  lemma {:induction false} SelectForConcat(front: seq<RegistryEntry>, back: seq<RegistryEntry>, topic: Topic)
    requires IsGlobTopic(topic)
    ensures SelectFor(front + back, topic) == SelectFor(front, topic) + SelectFor(back, topic)
    decreases |back|
  {
    if |back| == 0 {
      assert front + back == front;
    } else {
      var shorter := back[..|back| - 1];
      var last := back[|back| - 1];
      assert back == shorter + [last];
      assert front + back == (front + shorter) + [last];
      var added := SelectFor([last], topic);
      calc {
        SelectFor(front + back, topic);
        { SelectForSnoc(front + shorter, last, topic); }
        SelectFor(front + shorter, topic) + added;
        { SelectForConcat(front, shorter, topic); }
        (SelectFor(front, topic) + SelectFor(shorter, topic)) + added;
        SelectFor(front, topic) + (SelectFor(shorter, topic) + added);
        { SelectForSnoc(shorter, last, topic); }
        SelectFor(front, topic) + SelectFor(back, topic);
      }
    }
  }

  /** One more registry entry adds its own selection at the end. */
  lemma SelectForSnoc(registry: seq<RegistryEntry>, last: RegistryEntry, topic: Topic)
    requires IsGlobTopic(topic)
    ensures SelectFor(registry + [last], topic) == SelectFor(registry, topic) + SelectFor([last], topic)
  {
    var all := registry + [last];
    assert all[..|all| - 1] == registry;
    assert [last][..0] == [];
  }

  /** A topic's group holds the projection of every entry it selects, and
      nothing else. */
  lemma {:induction false} SelectForMembership(registry: seq<RegistryEntry>, topic: Topic, t: Topic)
    requires IsGlobTopic(topic)
    ensures t in SelectFor(registry, topic) <==>
      exists i :: 0 <= i < |registry| && IsMatchElement(registry[i], topic) && t == Project(registry[i])
    decreases |registry|
  {
    if |registry| > 0 {
      var front := registry[..|registry| - 1];
      SelectForMembership(front, topic, t);
      if t in SelectFor(front, topic) {
        var i :| 0 <= i < |front| && IsMatchElement(front[i], topic) && t == Project(front[i]);
        assert registry[i] == front[i];
      }
      if exists i :: 0 <= i < |registry| && IsMatchElement(registry[i], topic) && t == Project(registry[i]) {
        var i :| 0 <= i < |registry| && IsMatchElement(registry[i], topic) && t == Project(registry[i]);
        if i < |front| {
          assert front[i] == registry[i];
        }
      }
    }
  }

  lemma AllGlobPrefix(topics: seq<Topic>, k: nat)
    requires AllGlobTopics(topics) && k <= |topics|
    ensures AllGlobTopics(topics[..k])
  {
    var front := topics[..k];
    forall j | 0 <= j < |front|
      ensures IsGlobTopic(front[j])
    {
      assert front[j] == topics[j];
    }
  }

  lemma AllGlobAppend(first: seq<Topic>, second: seq<Topic>)
    requires AllGlobTopics(first) && AllGlobTopics(second)
    ensures AllGlobTopics(first + second)
  {
    var all := first + second;
    forall j | 0 <= j < |all|
      ensures IsGlobTopic(all[j])
    {
      if j < |first| {
        assert all[j] == first[j];
      } else {
        assert all[j] == second[j - |first|];
      }
    }
  }

  /** The output is grouped by topic, in topic order: selecting for two runs
      of topics gives the two outputs one after the other. */
  lemma {:induction false} TopicsByWildcardConcat(registry: seq<RegistryEntry>, first: seq<Topic>, second: seq<Topic>)
    requires AllGlobTopics(first) && AllGlobTopics(second)
    ensures AllGlobTopics(first + second)
    ensures TopicsByWildcard(registry, first + second) ==
      TopicsByWildcard(registry, first) + TopicsByWildcard(registry, second)
    decreases |second|
  {
    AllGlobAppend(first, second);
    var all := first + second;
    if |second| == 0 {
      assert all == first;
    } else {
      var shorter := second[..|second| - 1];
      AllGlobPrefix(second, |second| - 1);
      assert all[..|all| - 1] == first + shorter;
      assert all[|all| - 1] == second[|second| - 1];
      TopicsByWildcardConcat(registry, first, shorter);
    }
  }

  lemma {:induction false} TopicsByWildcardSound(registry: seq<RegistryEntry>, topics: seq<Topic>, t: Topic)
    requires AllGlobTopics(topics)
    requires t in TopicsByWildcard(registry, topics)
    ensures exists i, j :: 0 <= i < |registry| && 0 <= j < |topics| &&
                           IsMatchElement(registry[i], topics[j]) && t == Project(registry[i])
    decreases |topics|
  {
    var front := topics[..|topics| - 1];
    var last := topics[|topics| - 1];
    AllGlobPrefix(topics, |topics| - 1);
    assert TopicsByWildcard(registry, topics) == TopicsByWildcard(registry, front) + SelectFor(registry, last);
    if t in TopicsByWildcard(registry, front) {
      TopicsByWildcardSound(registry, front, t);
      var i, j :| 0 <= i < |registry| && 0 <= j < |front| &&
                  IsMatchElement(registry[i], front[j]) && t == Project(registry[i]);
      assert topics[j] == front[j];
    } else {
      SelectForMembership(registry, last, t);
      var i :| 0 <= i < |registry| && IsMatchElement(registry[i], last) && t == Project(registry[i]);
      assert IsMatchElement(registry[i], topics[|topics| - 1]);
    }
  }

  lemma {:induction false} TopicsByWildcardComplete(registry: seq<RegistryEntry>, topics: seq<Topic>, i: int, j: int)
    requires AllGlobTopics(topics)
    requires 0 <= i < |registry| && 0 <= j < |topics| && IsMatchElement(registry[i], topics[j])
    ensures Project(registry[i]) in TopicsByWildcard(registry, topics)
    decreases |topics|
  {
    var front := topics[..|topics| - 1];
    var last := topics[|topics| - 1];
    AllGlobPrefix(topics, |topics| - 1);
    assert TopicsByWildcard(registry, topics) == TopicsByWildcard(registry, front) + SelectFor(registry, last);
    if j < |front| {
      assert front[j] == topics[j];
      TopicsByWildcardComplete(registry, front, i, j);
    } else {
      assert topics[j] == last;
      SelectForMembership(registry, last, Project(registry[i]));
      assert Project(registry[i]) in SelectFor(registry, last);
    }
  }

  /** Every element of the output is the `{name, type}` of a registry entry
      that some requested topic selects, and every such pair is in the
      output. */
  lemma TopicsByWildcardMembership(registry: seq<RegistryEntry>, topics: seq<Topic>, t: Topic)
    requires AllGlobTopics(topics)
    ensures t in TopicsByWildcard(registry, topics) <==>
      exists i, j :: 0 <= i < |registry| && 0 <= j < |topics| &&
                     IsMatchElement(registry[i], topics[j]) && t == Project(registry[i])
  {
    if t in TopicsByWildcard(registry, topics) {
      TopicsByWildcardSound(registry, topics, t);
    }
    if exists i, j :: 0 <= i < |registry| && 0 <= j < |topics| &&
                      IsMatchElement(registry[i], topics[j]) && t == Project(registry[i]) {
      var i, j :| 0 <= i < |registry| && 0 <= j < |topics| &&
                  IsMatchElement(registry[i], topics[j]) && t == Project(registry[i]);
      TopicsByWildcardComplete(registry, topics, i, j);
    }
  }

  /** Duplicates are kept: a topic requested twice yields its group twice. */
  lemma RepeatedTopicRepeatsSelection(registry: seq<RegistryEntry>, topic: Topic)
    requires IsGlobTopic(topic)
    ensures AllGlobTopics([topic, topic])
    ensures TopicsByWildcard(registry, [topic, topic]) == SelectFor(registry, topic) + SelectFor(registry, topic)
  {
    TopicsByWildcardConcat(registry, [topic], [topic]);
    assert [topic] + [topic] == [topic, topic];
    assert [topic][..0] == [];
  }

  /** The inner `registry.forEach` of `getTopicsByWildcard` for one topic. */
  method SelectMatches(registry: seq<RegistryEntry>, topic: Topic) returns (found: seq<Topic>)
    requires IsGlobTopic(topic)
    ensures found == SelectFor(registry, topic)
  {
    found := [];
    var i := 0;
    while i < |registry|
      invariant 0 <= i <= |registry|
      invariant found == SelectFor(registry[..i], topic)
    {
      var el := registry[i];
      var seen := registry[..i + 1];
      assert seen[..i] == registry[..i] && seen[i] == el;
      if IsMatchElement(el, topic) {
        found := found + [Project(el)];
      }
      i := i + 1;
    }
    assert registry[..|registry|] == registry;
  }

  /** The two nested `forEach` loops of `getTopicsByWildcard`, pushing the
      projection of every match onto the result. */
  method GetTopicsByWildcard(registry: seq<RegistryEntry>, topics: seq<Topic>) returns (finalTopics: seq<Topic>)
    requires AllGlobTopics(topics)
    ensures finalTopics == TopicsByWildcard(registry, topics)
    ensures |finalTopics| == TotalMatchCount(registry, topics)
  {
    finalTopics := [];
    var j := 0;
    while j < |topics|
      invariant 0 <= j <= |topics|
      invariant AllGlobTopics(topics[..j])
      invariant finalTopics == TopicsByWildcard(registry, topics[..j])
    {
      var topic := topics[j];
      var done := topics[..j + 1];
      assert done[..j] == topics[..j] && done[j] == topic;
      AllGlobPrefix(topics, j + 1);
      var found := SelectMatches(registry, topic);
      finalTopics := finalTopics + found;
      assert finalTopics == TopicsByWildcard(registry, done);
      j := j + 1;
    }
    assert topics[..|topics|] == topics;
  }
}

=== FILE: shrinker.dfy ===
/**
 * `registryShrink(registry, topics)`: keep the registry entries a list of
 * requested topics asks for. For every topic in turn, every entry whose
 * normalised name equals the topic's normalised name and whose type equals
 * the topic's type is appended to the result. Right after each topic's
 * scan, the topic's name is filed as existing or not existing according to
 * `_.where(result, topic)`, an exact, un-normalised comparison against the
 * result collected so far. The two log lines the source prints are returned
 * as values.
 *
 * The worked examples take their string literals as parameters pinned by
 * `requires`, so the solver keeps them as names and spells them out only in
 * the steps that need their letters.
 */
module Shrinker {
  import opened JsStrings
  import opened Normalizer
  import opened Topics

  /** The registry scan's test: normalised names equal, types identical. */
  predicate SameTopic(topic: Topic, entry: RegistryEntry) {
    TrimAdvanced(topic.name) == TrimAdvanced(entry.name) && topic.topicType == entry.topicType
  }

  /** The test `_.where(list, topic)` applies: name and type equal as written. */
  predicate IsExactly(entry: RegistryEntry, topic: Topic) {
    entry.name == topic.name && entry.topicType == topic.topicType
  }

  /** `_.where(list, topic)`: the entries of `list` that carry the topic's
      name and type exactly, in order. */
  function Where(list: seq<RegistryEntry>, topic: Topic): seq<RegistryEntry>
    decreases |list|
  {
    if |list| == 0 then []
    else
      var front := list[..|list| - 1];
      var last := list[|list| - 1];
      assert list == front + [last];
      Where(front, topic) + (if IsExactly(last, topic) then [last] else [])
  }

  /** `_.where` keeps exactly the entries that equal the topic as written. */
  lemma {:induction false} WhereMembership(list: seq<RegistryEntry>, topic: Topic, e: RegistryEntry)
    ensures e in Where(list, topic) <==> e in list && IsExactly(e, topic)
    decreases |list|
  {
    if |list| > 0 {
      var front := list[..|list| - 1];
      var last := list[|list| - 1];
      assert list == front + [last];
      WhereMembership(front, topic, e);
    }
  }

  /** The number of registry entries the topic asks for. */
  function SameTopicCount(registry: seq<RegistryEntry>, topic: Topic): nat
    decreases |registry|
  {
    if |registry| == 0 then 0
    else SameTopicCount(registry[1..], topic) + (if SameTopic(topic, registry[0]) then 1 else 0)
  }

  lemma {:induction false} SameTopicCountFromEnd(registry: seq<RegistryEntry>, topic: Topic)
    requires |registry| > 0
    ensures SameTopicCount(registry, topic) ==
      SameTopicCount(registry[..|registry| - 1], topic) + (if SameTopic(topic, registry[|registry| - 1]) then 1 else 0)
    decreases |registry|
  {
    if |registry| > 1 {
      var front := registry[..|registry| - 1];
      assert registry[1..][..|registry[1..]| - 1] == front[1..];
      assert registry[1..][|registry[1..]| - 1] == registry[|registry| - 1];
      SameTopicCountFromEnd(registry[1..], topic);
    }
  }

  /** The sum of the counts over the requested topics. */
  function TotalSameTopicCount(registry: seq<RegistryEntry>, topics: seq<Topic>): nat
    decreases |topics|
  {
    if |topics| == 0 then 0
    else TotalSameTopicCount(registry, topics[..|topics| - 1]) + SameTopicCount(registry, topics[|topics| - 1])
  }

  /** The inner `registry.forEach` for one topic: the entries it asks for,
      unmodified and in registry order. */
  function Collect(registry: seq<RegistryEntry>, topic: Topic): seq<RegistryEntry>
    decreases |registry|
  {
    if |registry| == 0 then []
    else
      var front := registry[..|registry| - 1];
      var last := registry[|registry| - 1];
      Collect(front, topic) + (if SameTopic(topic, last) then [last] else [])
  }

  /** The scan collects exactly the registry entries the topic asks for. */
  lemma {:induction false} CollectMembership(registry: seq<RegistryEntry>, topic: Topic, e: RegistryEntry)
    ensures e in Collect(registry, topic) <==> e in registry && SameTopic(topic, e)
    decreases |registry|
  {
    if |registry| > 0 {
      var front := registry[..|registry| - 1];
      var last := registry[|registry| - 1];
      assert registry == front + [last];
      CollectMembership(front, topic, e);
    }
  }

  /** The result, and the topic names filed as existing and as not existing. */
  datatype ShrinkOutcome = ShrinkOutcome(entries: seq<RegistryEntry>, existing: seq<string>, notExisting: seq<string>)

  /** The entries the nested loops collect for a run of topics: for each
      topic in turn, the registry entries it asks for. Duplicates are kept. */
  function ShrinkEntries(registry: seq<RegistryEntry>, topics: seq<Topic>): (r: seq<RegistryEntry>)
    decreases |topics|
  {
    if |topics| == 0 then []
    else ShrinkEntries(registry, topics[..|topics| - 1]) + Collect(registry, topics[|topics| - 1])
  }

  /** The scan collects one entry per registry entry the topic asks for. */
  lemma {:induction false} CollectCount(registry: seq<RegistryEntry>, topic: Topic)
    ensures |Collect(registry, topic)| == SameTopicCount(registry, topic)
    decreases |registry|
  {
    if |registry| > 0 {
      SameTopicCountFromEnd(registry, topic);
      CollectCount(registry[..|registry| - 1], topic);
    }
  }

  /** The result holds as many entries as the topics ask for in total. */
  lemma {:induction false} ShrinkEntriesCount(registry: seq<RegistryEntry>, topics: seq<Topic>)
    ensures |ShrinkEntries(registry, topics)| == TotalSameTopicCount(registry, topics)
    decreases |topics|
  {
    if |topics| > 0 {
      ShrinkEntriesCount(registry, topics[..|topics| - 1]);
      CollectCount(registry, topics[|topics| - 1]);
    }
  }

  /** `registryShrink(registry, topics)` as written: each topic's matches are
      appended, then the topic is filed by `_.where` on everything collected
      so far. Every topic name is filed exactly once. */
  function RegistryShrink(registry: seq<RegistryEntry>, topics: seq<Topic>): (r: ShrinkOutcome)
    ensures |r.existing| + |r.notExisting| == |topics|
    decreases |topics|
  {
    var entries := ShrinkEntries(registry, topics);
    if |topics| == 0 then ShrinkOutcome(entries, [], [])
    else
      var prev := RegistryShrink(registry, topics[..|topics| - 1]);
      var topic := topics[|topics| - 1];
      if |Where(entries, topic)| == 0 then ShrinkOutcome(entries, prev.existing, prev.notExisting + [topic.name])
      else ShrinkOutcome(entries, prev.existing + [topic.name], prev.notExisting)
  }

  /** Every returned entry is one that some requested topic asks for. */
  lemma {:induction false} ShrinkEntriesSound(registry: seq<RegistryEntry>, topics: seq<Topic>, e: RegistryEntry)
    requires e in ShrinkEntries(registry, topics)
    ensures e in registry
    ensures exists j :: 0 <= j < |topics| && SameTopic(topics[j], e)
    decreases |topics|
  {
    var front := topics[..|topics| - 1];
    var last := topics[|topics| - 1];
    var prev, added := ShrinkEntries(registry, front), Collect(registry, last);
    assert ShrinkEntries(registry, topics) == prev + added;
    if e in prev {
      ShrinkEntriesSound(registry, front, e);
      var j :| 0 <= j < |front| && SameTopic(front[j], e);
      assert topics[j] == front[j];
    } else {
      assert e in added;
      CollectMembership(registry, last, e);
      assert topics[|topics| - 1] == last;
    }
  }

  /** Every registry entry a requested topic asks for is returned. */
  lemma {:induction false} ShrinkEntriesComplete(registry: seq<RegistryEntry>, topics: seq<Topic>, e: RegistryEntry, j: int)
    requires e in registry && 0 <= j < |topics| && SameTopic(topics[j], e)
    ensures e in ShrinkEntries(registry, topics)
    decreases |topics|
  {
    var front := topics[..|topics| - 1];
    var last := topics[|topics| - 1];
    var prev, added := ShrinkEntries(registry, front), Collect(registry, last);
    assert ShrinkEntries(registry, topics) == prev + added;
    if j < |front| {
      assert e in prev by {
        assert front[j] == topics[j];
        ShrinkEntriesComplete(registry, front, e, j);
      }
    } else {
      assert e in added by {
        assert topics[j] == last;
        CollectMembership(registry, last, e);
      }
    }
  }

  /** One more topic adds its own scan at the end. */
  lemma ShrinkEntriesSnoc(registry: seq<RegistryEntry>, topics: seq<Topic>, last: Topic)
    ensures ShrinkEntries(registry, topics + [last]) == ShrinkEntries(registry, topics) + Collect(registry, last)
  {
    var all := topics + [last];
    assert all[..|all| - 1] == topics;
    assert all[|all| - 1] == last;
  }

  /** Duplicates are kept in topic-major order: shrinking for two runs of
      topics returns the two results one after the other. */
  lemma {:induction false} ShrinkTopicMajor(registry: seq<RegistryEntry>, first: seq<Topic>, second: seq<Topic>)
    ensures ShrinkEntries(registry, first + second) ==
      ShrinkEntries(registry, first) + ShrinkEntries(registry, second)
    decreases |second|
  {
    if |second| == 0 {
      assert first + second == first;
    } else {
      var shorter := second[..|second| - 1];
      var last := second[|second| - 1];
      assert second == shorter + [last];
      assert first + second == (first + shorter) + [last];
      var collected := Collect(registry, last);
      calc {
        ShrinkEntries(registry, first + second);
        { ShrinkEntriesSnoc(registry, first + shorter, last); }
        ShrinkEntries(registry, first + shorter) + collected;
        { ShrinkTopicMajor(registry, first, shorter); }
        (ShrinkEntries(registry, first) + ShrinkEntries(registry, shorter)) + collected;
        ShrinkEntries(registry, first) + (ShrinkEntries(registry, shorter) + collected);
        { ShrinkEntriesSnoc(registry, shorter, last); }
        ShrinkEntries(registry, first) + ShrinkEntries(registry, second);
      }
    }
  }

  /** The registry holds an entry with the topic's name and type as written. */
  predicate InRegistryExactly(registry: seq<RegistryEntry>, topic: Topic) {
    exists i :: 0 <= i < |registry| && IsExactly(registry[i], topic)
  }

  /** The names of the topics whose exact presence in the registry is
      `present`, in topic order. */
  function NamesByExactPresence(registry: seq<RegistryEntry>, topics: seq<Topic>, present: bool): seq<string>
    decreases |topics|
  {
    if |topics| == 0 then []
    else
      var last := topics[|topics| - 1];
      NamesByExactPresence(registry, topics[..|topics| - 1], present)
        + (if InRegistryExactly(registry, last) == present then [last.name] else [])
  }

  /** The `_.where` test on the accumulated result succeeds exactly when the
      registry holds an entry with the topic's name and type as written. An
      earlier topic's match can be what the test finds, but an entry that
      equals the topic exactly is also one the topic's own scan collects. */
  lemma WhereFindsExactEntry(registry: seq<RegistryEntry>, topics: seq<Topic>)
    requires |topics| > 0
    ensures var entries := ShrinkEntries(registry, topics);
            |Where(entries, topics[|topics| - 1])| > 0 <==> InRegistryExactly(registry, topics[|topics| - 1])
  {
    var topic := topics[|topics| - 1];
    var entries := ShrinkEntries(registry, topics);
    if |Where(entries, topic)| > 0 {
      var e := Where(entries, topic)[0];
      assert e in Where(entries, topic);
      WhereMembership(entries, topic, e);
      ShrinkEntriesSound(registry, topics, e);
      var i :| 0 <= i < |registry| && registry[i] == e;
      assert IsExactly(registry[i], topic);
    }
    if InRegistryExactly(registry, topic) {
      var i :| 0 <= i < |registry| && IsExactly(registry[i], topic);
      var e := registry[i];
      assert SameTopic(topic, e);
      ShrinkEntriesComplete(registry, topics, e, |topics| - 1);
      WhereMembership(entries, topic, e);
    }
  }

  /** Each requested topic name is filed exactly once, in topic order: as
      existing when the registry holds an entry with that name and type as
      written, as not existing otherwise. */
  lemma {:induction false} ShrinkReportsExactPresence(registry: seq<RegistryEntry>, topics: seq<Topic>)
    ensures RegistryShrink(registry, topics).existing == NamesByExactPresence(registry, topics, true)
    ensures RegistryShrink(registry, topics).notExisting == NamesByExactPresence(registry, topics, false)
    decreases |topics|
  {
    if |topics| > 0 {
      ShrinkReportsExactPresence(registry, topics[..|topics| - 1]);
      WhereFindsExactEntry(registry, topics);
    }
  }

  /** As written, a topic that reaches its entry only through normalisation
      is cloned but reported as not existing: the entry is returned, and the
      topic's name is filed under not existing and missing from the list of
      topics that will be cloned. */
  lemma NormalisedMatchReportedMissing(entry: RegistryEntry, topic: Topic)
    requires SameTopic(topic, entry) && topic.name != entry.name
    ensures RegistryShrink([entry], [topic]) == ShrinkOutcome([entry], [], [topic.name])
  {
    var registry, topics := [entry], [topic];
    assert topics[..0] == [] && registry[..0] == [];
    assert Collect(registry, topic) == [entry];
    assert ShrinkEntries(registry, topics) == ShrinkEntries(registry, []) + [entry];
    assert Where([entry], topic) == [];
    assert RegistryShrink(registry, []) == ShrinkOutcome([], [], []);
  }

  /** The concrete case: asking for "Tupac Ipsum" of type "overview" when the
      registry spells it "tupac ipsum". */
  lemma TupacIpsumReportedMissing(capitalised: string, lower: string)
    requires capitalised == "Tupac Ipsum" && lower == "tupac ipsum"
    ensures var entry := RegistryEntry(lower, "overview", map[]);
            RegistryShrink([entry], [Topic(capitalised, "overview")]) == ShrinkOutcome([entry], [], [capitalised])
  {
    TrimAdvancedTupacIpsum(capitalised, lower);
    NormalisedMatchReportedMissing(RegistryEntry(lower, "overview", map[]), Topic(capitalised, "overview"));
  }

  /** A topic that nothing in the registry answers to is reported as not
      existing and contributes nothing. */
  lemma UnknownTopicReportedMissing(registry: seq<RegistryEntry>, topic: Topic)
    requires forall i :: 0 <= i < |registry| ==> !SameTopic(topic, registry[i])
    ensures RegistryShrink(registry, [topic]) == ShrinkOutcome([], [], [topic.name])
  {
    CollectNonEmptyIff(registry, topic);
    assert !InRegistryNormalised(registry, topic);
    assert Collect(registry, topic) == [];
    var topics := [topic];
    assert topics[..0] == [];
    assert ShrinkEntries(registry, topics) == ShrinkEntries(registry, []) + Collect(registry, topic);
    assert Where([], topic) == [];
  }

  /** The normalised counterpart of `InRegistryExactly`: some entry answers
      to the topic. */
  predicate InRegistryNormalised(registry: seq<RegistryEntry>, topic: Topic) {
    exists i :: 0 <= i < |registry| && SameTopic(topic, registry[i])
  }

  /** The names of the topics some registry entry answers to (or none, when
      `present` is false), in topic order. */
  function NamesByNormalisedPresence(registry: seq<RegistryEntry>, topics: seq<Topic>, present: bool): seq<string>
    decreases |topics|
  {
    if |topics| == 0 then []
    else
      var last := topics[|topics| - 1];
      NamesByNormalisedPresence(registry, topics[..|topics| - 1], present)
        + (if InRegistryNormalised(registry, last) == present then [last.name] else [])
  }

  /** `registryShrink` with the filing the log messages describe: a topic is
      filed as existing when its own scan collected an entry. The entries
      returned are those of the source. */
  function RegistryShrinkCorrected(registry: seq<RegistryEntry>, topics: seq<Topic>): (r: ShrinkOutcome)
    ensures r.entries == ShrinkEntries(registry, topics)
    ensures |r.existing| + |r.notExisting| == |topics|
    decreases |topics|
  {
    if |topics| == 0 then ShrinkOutcome([], [], [])
    else
      var prev := RegistryShrinkCorrected(registry, topics[..|topics| - 1]);
      var topic := topics[|topics| - 1];
      var found := Collect(registry, topic);
      var entries := prev.entries + found;
      if |found| == 0 then ShrinkOutcome(entries, prev.existing, prev.notExisting + [topic.name])
      else ShrinkOutcome(entries, prev.existing + [topic.name], prev.notExisting)
  }

  lemma CollectNonEmptyIff(registry: seq<RegistryEntry>, topic: Topic)
    ensures |Collect(registry, topic)| > 0 <==> InRegistryNormalised(registry, topic)
  {
    var c := Collect(registry, topic);
    if |c| > 0 {
      assert c[0] in c;
      CollectMembership(registry, topic, c[0]);
      var i :| 0 <= i < |registry| && registry[i] == c[0];
    }
    if InRegistryNormalised(registry, topic) {
      var i :| 0 <= i < |registry| && SameTopic(topic, registry[i]);
      CollectMembership(registry, topic, registry[i]);
    }
  }

  /** In the corrected filing a topic is reported as existing exactly when
      some registry entry answers to it, that is, when it contributed an
      entry to the result; it is reported as not existing otherwise. */
  lemma {:induction false} CorrectedReportsNormalisedPresence(registry: seq<RegistryEntry>, topics: seq<Topic>)
    ensures RegistryShrinkCorrected(registry, topics).existing == NamesByNormalisedPresence(registry, topics, true)
    ensures RegistryShrinkCorrected(registry, topics).notExisting == NamesByNormalisedPresence(registry, topics, false)
    decreases |topics|
  {
    if |topics| > 0 {
      CorrectedReportsNormalisedPresence(registry, topics[..|topics| - 1]);
      CollectNonEmptyIff(registry, topics[|topics| - 1]);
    }
  }

  /** With the corrected filing the normalised-only match is reported as
      existing. */
  lemma CorrectedNormalisedMatchReported(entry: RegistryEntry, topic: Topic)
    requires SameTopic(topic, entry)
    ensures RegistryShrinkCorrected([entry], [topic]) == ShrinkOutcome([entry], [topic.name], [])
  {
    var registry, topics := [entry], [topic];
    assert topics[..0] == [];
    assert Collect(registry, topic) == [entry] by {
      assert registry[..0] == [];
    }
  }

  /** One line of diagnostic output, with its severity. */
  datatype LogLine = Error(text: string) | Warning(text: string)

  const NotExistingMessage := "The following topic does not exist in the registry: "
  const ClonedMessage := "Registry is shrinked and only the following topics will get cloned: "

  /** The two `log` calls: an error listing the names filed as not existing,
      printed only when there is one, then always a warning listing the names
      filed as existing. A list is rendered the way a template literal
      renders an array, joined with commas. */
  function ShrinkLog(outcome: ShrinkOutcome): (log: seq<LogLine>)
    ensures |log| >= 1 && log[|log| - 1] == Warning(ClonedMessage + Join(outcome.existing, ","))
    ensures (exists k :: 0 <= k < |log| && log[k].Error?) <==> |outcome.notExisting| > 0
  {
    var errors := if |outcome.notExisting| > 0 then [Error(NotExistingMessage + Join(outcome.notExisting, ","))] else [];
    var log := errors + [Warning(ClonedMessage + Join(outcome.existing, ","))];
    assert |outcome.notExisting| > 0 ==> log[0].Error?;
    assert |outcome.notExisting| == 0 ==> log == [Warning(ClonedMessage + Join(outcome.existing, ","))];
    log
  }

  /** When no topic name contains a comma, the error line lists exactly the
      names filed as not existing: splitting its list at the commas gives
      them back. */
  lemma ShrinkLogListsMissingNames(outcome: ShrinkOutcome)
    requires |outcome.notExisting| > 0
    requires forall k :: 0 <= k < |outcome.notExisting| ==> ',' !in outcome.notExisting[k]
    ensures ShrinkLog(outcome)[0].Error?
    ensures var text := ShrinkLog(outcome)[0].text;
            |NotExistingMessage| <= |text| &&
            Split(text[|NotExistingMessage|..], ',') == outcome.notExisting
  {
    var listed := Join(outcome.notExisting, [',']);
    SplitJoin(outcome.notExisting, ',');
    assert (NotExistingMessage + listed)[|NotExistingMessage|..] == listed;
  }

  lemma {:induction false} NoNormalisedMatchListed(registry: seq<RegistryEntry>, topics: seq<Topic>)
    ensures |NamesByNormalisedPresence(registry, topics, false)| > 0 <==>
      exists j :: 0 <= j < |topics| && !InRegistryNormalised(registry, topics[j])
    decreases |topics|
  {
    if |topics| > 0 {
      var front := topics[..|topics| - 1];
      var last := topics[|topics| - 1];
      var lastMissing := !InRegistryNormalised(registry, last);
      NoNormalisedMatchListed(registry, front);
      assert |NamesByNormalisedPresence(registry, topics, false)| > 0 <==>
        |NamesByNormalisedPresence(registry, front, false)| > 0 || lastMissing;
      MissingSnoc(registry, front, last);
      assert front + [last] == topics;
    }
  }

  /** A topic list with one more topic misses a topic when the shorter list
      does or the new topic is missing. */
  lemma MissingSnoc(registry: seq<RegistryEntry>, front: seq<Topic>, last: Topic)
    ensures (exists j :: 0 <= j < |front + [last]| && !InRegistryNormalised(registry, (front + [last])[j])) <==>
      (exists j :: 0 <= j < |front| && !InRegistryNormalised(registry, front[j])) || !InRegistryNormalised(registry, last)
  {
    var topics := front + [last];
    if exists j :: 0 <= j < |front| && !InRegistryNormalised(registry, front[j]) {
      var j :| 0 <= j < |front| && !InRegistryNormalised(registry, front[j]);
      assert topics[j] == front[j];
    }
    if !InRegistryNormalised(registry, last) {
      assert topics[|front|] == last;
    }
    if exists j :: 0 <= j < |topics| && !InRegistryNormalised(registry, topics[j]) {
      var j :| 0 <= j < |topics| && !InRegistryNormalised(registry, topics[j]);
      if j < |front| {
        assert front[j] == topics[j];
      }
    }
  }

  /** With the corrected filing, the error line appears exactly when some
      requested topic has no entry in the registry at all. */
  lemma CorrectedLogFlagsOnlyUnknownTopics(registry: seq<RegistryEntry>, topics: seq<Topic>)
    ensures var log := ShrinkLog(RegistryShrinkCorrected(registry, topics));
            (exists k :: 0 <= k < |log| && log[k].Error?) <==>
              exists j :: 0 <= j < |topics| && !InRegistryNormalised(registry, topics[j])
  {
    var outcome := RegistryShrinkCorrected(registry, topics);
    CorrectedReportsNormalisedPresence(registry, topics);
    NoNormalisedMatchListed(registry, topics);
    assert |outcome.notExisting| > 0 <==>
      exists j :: 0 <= j < |topics| && !InRegistryNormalised(registry, topics[j]);
    var log := ShrinkLog(outcome);
    assert (exists k :: 0 <= k < |log| && log[k].Error?) <==> |outcome.notExisting| > 0;
  }

  /** The inner `registry.forEach` of `registryShrink` for one topic. */
  method ScanRegistry(registry: seq<RegistryEntry>, topic: Topic) returns (found: seq<RegistryEntry>)
    ensures found == Collect(registry, topic)
  {
    found := [];
    var i := 0;
    while i < |registry|
      invariant 0 <= i <= |registry|
      invariant found == Collect(registry[..i], topic)
    {
      var el := registry[i];
      var seen := registry[..i + 1];
      assert seen[..i] == registry[..i] && seen[i] == el;
      if TrimAdvanced(topic.name) == TrimAdvanced(el.name) && topic.topicType == el.topicType {
        found := found + [el];
      }
      i := i + 1;
    }
    assert registry[..|registry|] == registry;
  }

  /** Filing one more topic: its scan is appended to the entries, and its
      name goes to one of the two lists by `_.where` on the result. */
  lemma RegistryShrinkStep(registry: seq<RegistryEntry>, topics: seq<Topic>, j: int)
    requires 0 <= j < |topics|
    ensures var prev := RegistryShrink(registry, topics[..j]);
            var next := RegistryShrink(registry, topics[..j + 1]);
            var entries := prev.entries + Collect(registry, topics[j]);
            && next.entries == entries
            && next.existing == prev.existing + (if |Where(entries, topics[j])| == 0 then [] else [topics[j].name])
            && next.notExisting == prev.notExisting + (if |Where(entries, topics[j])| == 0 then [topics[j].name] else [])
  {
    var done := topics[..j + 1];
    assert done[..j] == topics[..j] && done[j] == topics[j];
  }

  /** The two nested `forEach` loops of `registryShrink` and its two log
      calls. */
  method RegistryShrinkWithLog(registry: seq<RegistryEntry>, topics: seq<Topic>)
    returns (shrinkedRegistry: seq<RegistryEntry>, log: seq<LogLine>)
    ensures shrinkedRegistry == RegistryShrink(registry, topics).entries
    ensures log == ShrinkLog(RegistryShrink(registry, topics))
  {
    shrinkedRegistry := [];
    var notExistingTopics: seq<string> := [];
    var existingTopics: seq<string> := [];
    var j := 0;
    while j < |topics|
      invariant 0 <= j <= |topics|
      invariant ShrinkOutcome(shrinkedRegistry, existingTopics, notExistingTopics) == RegistryShrink(registry, topics[..j])
    {
      shrinkedRegistry, existingTopics, notExistingTopics :=
        FileTopic(registry, topics, j, shrinkedRegistry, existingTopics, notExistingTopics);
      j := j + 1;
    }
    assert topics[..|topics|] == topics;
    log := ShrinkLogLines(ShrinkOutcome(shrinkedRegistry, existingTopics, notExistingTopics));
  }

  /** One pass of the outer loop: scan the registry for `topics[j]`, append
      what was found, and file the topic's name by `_.where` on the result. */
  method FileTopic(registry: seq<RegistryEntry>, topics: seq<Topic>, j: int,
                   shrinked: seq<RegistryEntry>, existing: seq<string>, notExisting: seq<string>)
    returns (shrinked': seq<RegistryEntry>, existing': seq<string>, notExisting': seq<string>)
    requires 0 <= j < |topics|
    requires ShrinkOutcome(shrinked, existing, notExisting) == RegistryShrink(registry, topics[..j])
    ensures ShrinkOutcome(shrinked', existing', notExisting') == RegistryShrink(registry, topics[..j + 1])
  {
    var topic := topics[j];
    RegistryShrinkStep(registry, topics, j);
    var found := ScanRegistry(registry, topic);
    shrinked' := shrinked + found;
    var presentTopic := Where(shrinked', topic);
    existing', notExisting' := existing, notExisting;
    if |presentTopic| == 0 {
      notExisting' := notExisting + [topic.name];
    } else {
      existing' := existing + [topic.name];
    }
  }

  /** The two log calls: the error line when some topic is missing, then the
      warning line. */
  method ShrinkLogLines(outcome: ShrinkOutcome) returns (log: seq<LogLine>)
    ensures log == ShrinkLog(outcome)
  {
    log := [];
    if |outcome.notExisting| > 0 {
      log := log + [Error(NotExistingMessage + Join(outcome.notExisting, ","))];
    }
    log := log + [Warning(ClonedMessage + Join(outcome.existing, ","))];
  }
}

=== FILE: topic_types.dfy ===
/**
 * `uniqTopicTypes(config, message)`: the topic types named on the command
 * line (`-t 'services:serviceOne,tools:toolOne'`), each once and in order of
 * first appearance, followed by the configured independent sections.
 *
 * The worked examples take their string literals as parameters pinned by
 * `requires`, so the solver keeps them as names and spells them out only in
 * the steps that need their letters.
 */
module TopicTypes {
  import opened JsStrings

  /** The part of the configuration the function reads. A missing or
      non-array `independentSections` behaves like an empty one. */
  datatype Config = Config(independentSections: seq<string>)

  /** `el.split(':')[0]`: the type part of a `type:name` token, which is the
      token up to its first colon, or the whole token when it has none. */
  function TypeOfToken(token: string): (t: string)
    ensures |t| <= |token| && token[..|t|] == t
    ensures ':' !in t
    ensures |t| == |token| || token[|t|] == ':'
  {
    SplitFirstPiece(token, ':');
    SplitPiecesAvoidSeparator(token, ':');
    Split(token, ':')[0]
  }

  /** `tokens.map((el) => el.split(':')[0])`. */
  function TokenTypes(tokens: seq<string>): seq<string>
  {
    seq(|tokens|, k requires 0 <= k < |tokens| => TypeOfToken(tokens[k]))
  }

  predicate NoDuplicates(xs: seq<string>) {
    forall i, j :: 0 <= i < j < |xs| ==> xs[i] != xs[j]
  }

  /** `_.uniq(xs)`: the first occurrence of every value, in order. */
  function Uniq(xs: seq<string>): (r: seq<string>)
    ensures NoDuplicates(r)
    ensures forall x :: x in r <==> x in xs
    decreases |xs|
  {
    if |xs| == 0 then []
    else
      var front := xs[..|xs| - 1];
      var last := xs[|xs| - 1];
      assert xs == front + [last];
      var u := Uniq(front);
      if last in u then u else u + [last]
  }

  /** The position of the first occurrence of `x` in `xs`. */
  function FirstIndex(xs: seq<string>, x: string): (k: nat)
    requires x in xs
    ensures k < |xs| && xs[k] == x && x !in xs[..k]
    decreases |xs|
  {
    if xs[0] == x then 0
    else
      var k := 1 + FirstIndex(xs[1..], x);
      assert xs[..k] == [xs[0]] + xs[1..][..k - 1];
      k
  }

  /** A first occurrence in a prefix is a first occurrence in the whole. */
  lemma FirstIndexInPrefix(xs: seq<string>, n: nat, x: string)
    requires n <= |xs| && x in xs[..n]
    ensures FirstIndex(xs, x) == FirstIndex(xs[..n], x)
  {
    var m := FirstIndex(xs[..n], x);
    assert xs[..n][..m] == xs[..m];
  }

  /** The values `_.uniq` keeps appear in the order of their first
      occurrences in the input. Together with the postconditions of `Uniq`
      this determines the result. */
  lemma {:induction false} UniqKeepsFirstOccurrenceOrder(xs: seq<string>)
    ensures forall i, j :: 0 <= i < j < |Uniq(xs)| ==>
      FirstIndex(xs, Uniq(xs)[i]) < FirstIndex(xs, Uniq(xs)[j])
    decreases |xs|
  {
    if |xs| > 0 {
      var front := xs[..|xs| - 1];
      var last := xs[|xs| - 1];
      var u := Uniq(front);
      assert xs == front + [last];
      UniqKeepsFirstOccurrenceOrder(front);
      forall y | y in u
        ensures FirstIndex(xs, y) == FirstIndex(front, y) < |front|
      {
        FirstIndexInPrefix(xs, |front|, y);
      }
      if last !in u {
        assert FirstIndex(xs, last) == |front|;
        var r := u + [last];
        forall i, j | 0 <= i < j < |r|
          ensures FirstIndex(xs, r[i]) < FirstIndex(xs, r[j])
        {
          assert r[i] in u;
          if j < |u| {
            assert r[j] in u;
          }
        }
      } else {
        forall i, j | 0 <= i < j < |u|
          ensures FirstIndex(xs, u[i]) < FirstIndex(xs, u[j])
        {
          assert u[i] in u && u[j] in u;
        }
      }
    }
  }

  /** A list without duplicates is left as it is. */
  lemma {:induction false} UniqOfDistinct(xs: seq<string>)
    requires NoDuplicates(xs)
    ensures Uniq(xs) == xs
    decreases |xs|
  {
    if |xs| > 0 {
      var front := xs[..|xs| - 1];
      UniqOfDistinct(front);
      assert xs[|xs| - 1] !in front;
      assert xs == front + [xs[|xs| - 1]];
    }
  }

  /** The message part of `uniqTopicTypes`: nothing for an empty message,
      otherwise the unique types of its comma-separated tokens. */
  function MessageTypes(message: string): (types: seq<string>)
    ensures NoDuplicates(types)
    ensures message == "" <==> types == []
  {
    if message == "" then []
    else
      var all := TokenTypes(Split(message, ','));
      assert all[0] in all;
      Uniq(all)
  }

  /** `uniqTopicTypes(config, message)`. A message is split at commas, each
      token cut at its first colon, and the resulting types made unique; the
      independent sections, when there are any, are appended as they are. */
  function UniqTopicTypes(config: Config, message: string): (r: seq<string>)
    ensures |config.independentSections| <= |r|
    ensures r[|r| - |config.independentSections|..] == config.independentSections
    ensures NoDuplicates(r[..|r| - |config.independentSections|])
    ensures message == "" ==> r == config.independentSections
    ensures message != "" ==> |r| > |config.independentSections|
  {
    var topics := MessageTypes(message);
    var sections := config.independentSections;
    var r := if |sections| > 0 then (if |topics| > 0 then topics + sections else sections) else topics;
    assert r == topics + sections;
    assert r[..|topics|] == topics;
    r
  }

  /** Some `type:name` token of a non-empty message carries type `t`. */
  predicate NamedInMessage(message: string, t: string) {
    message != "" && exists k :: 0 <= k < |Split(message, ',')| && TypeOfToken(Split(message, ',')[k]) == t
  }

  /** A type is listed before the independent sections exactly when some
      token of the message carries it. */
  lemma UniqTopicTypesContents(config: Config, message: string, t: string)
    ensures var r := UniqTopicTypes(config, message);
            t in r[..|r| - |config.independentSections|] <==> NamedInMessage(message, t)
  {
    var r := UniqTopicTypes(config, message);
    var sections := config.independentSections;
    var topics := MessageTypes(message);
    assert r == topics + sections;
    assert r[..|r| - |sections|] == topics;
    if message != "" {
      var tokens := Split(message, ',');
      var types := TokenTypes(tokens);
      TokenTypesMembership(tokens, t);
      assert t in topics <==> t in types;
    }
  }

  /** A type is among the tokens' types exactly when some token carries it. */
  lemma TokenTypesMembership(tokens: seq<string>, t: string)
    ensures t in TokenTypes(tokens) <==> exists k :: 0 <= k < |tokens| && TypeOfToken(tokens[k]) == t
  {
    var types := TokenTypes(tokens);
    if t in types {
      var k :| 0 <= k < |types| && types[k] == t;
      assert TypeOfToken(tokens[k]) == t;
    }
    if exists k :: 0 <= k < |tokens| && TypeOfToken(tokens[k]) == t {
      var k :| 0 <= k < |tokens| && TypeOfToken(tokens[k]) == t;
      assert types[k] == t;
    }
  }

  /** The type of a `type:name` token whose type has no colon. */
  lemma TypeOfPair(kind: string, name: string)
    requires ':' !in kind
    ensures TypeOfToken(kind + [':'] + name) == kind
  {
    SplitAroundSeparator(kind, ':', name);
    SplitWithoutSeparator(kind, ':');
  }

  /** `kind` has neither a comma nor a colon, `name` has no comma. */
  predicate IsPair(kind: string, name: string) {
    ':' !in kind && ',' !in kind && ',' !in name
  }

  /** Splitting comma-free tokens joined with commas gives them back. */
  lemma SplitTwoTokens(a: string, b: string)
    requires ',' !in a && ',' !in b
    ensures Split(a + [','] + b, ',') == [a, b]
  {
    SplitAroundSeparator(a, ',', b);
    SplitWithoutSeparator(a, ',');
    SplitWithoutSeparator(b, ',');
  }

  lemma SplitThreeTokens(a: string, b: string, c: string)
    requires ',' !in a && ',' !in b && ',' !in c
    ensures Split(a + [','] + b + [','] + c, ',') == [a, b, c]
  {
    assert a + [','] + b + [','] + c == a + [','] + (b + [','] + c);
    SplitAroundSeparator(a, ',', b + [','] + c);
    SplitWithoutSeparator(a, ',');
    SplitTwoTokens(b, c);
  }

  /** Two tokens of one type around a token of another give the two types,
      first occurrences first. */
  lemma UniqTopicTypesRepeatedType(kind: string, other: string, first: string, second: string, third: string)
    requires IsPair(kind, first) && IsPair(other, second) && IsPair(kind, third) && kind != other
    ensures UniqTopicTypes(Config([]), kind + [':'] + first + [','] + other + [':'] + second + [','] + kind + [':'] + third)
      == [kind, other]
  {
    var a, b, c := kind + [':'] + first, other + [':'] + second, kind + [':'] + third;
    var message := kind + [':'] + first + [','] + other + [':'] + second + [','] + kind + [':'] + third;
    assert message == a + [','] + b + [','] + c;
    SplitThreeTokens(a, b, c);
    TypeOfPair(kind, first);
    TypeOfPair(other, second);
    TypeOfPair(kind, third);
    var types := TokenTypes([a, b, c]);
    assert types == [kind, other, kind];
    UniqOfThree(kind, other);
    assert MessageTypes(message) == [kind, other];
    assert UniqTopicTypes(Config([]), message) == MessageTypes(message) + [];
  }

  /** `_.uniq([kind, other, kind])` for two different values. */
  lemma UniqOfThree(kind: string, other: string)
    requires kind != other
    ensures Uniq([kind, other, kind]) == [kind, other]
  {
    var xs := [kind, other, kind];
    assert xs[..2] == [kind, other] && xs[..2][..1] == [kind] && xs[..2][..1][..0] == [];
    assert Uniq([kind]) == [kind];
  }

  /** Worked example: `services:serviceOne,tools:toolOne,services:serviceTwo`
      gives `services` and `tools`. */
  lemma UniqTopicTypesExample(services: string, tools: string)
    requires services == "services" && tools == "tools"
    ensures UniqTopicTypes(Config([]), services + ":serviceOne," + tools + ":toolOne," + services + ":serviceTwo")
      == [services, tools]
  {
    ExampleMessageTokens(services, tools);
    UniqTopicTypesRepeatedType(services, tools, "serviceOne", "toolOne", "serviceTwo");
  }

  /** The example message, written as `type:name` tokens joined with commas. */
  lemma ExampleMessageTokens(services: string, tools: string)
    requires services == "services" && tools == "tools"
    ensures services + ":serviceOne," + tools + ":toolOne," + services + ":serviceTwo"
      == services + [':'] + "serviceOne" + [','] + tools + [':'] + "toolOne" + [','] + services + [':'] + "serviceTwo"
  {
    assert ":serviceOne," == [':'] + "serviceOne" + [','];
    assert ":toolOne," == [':'] + "toolOne" + [','];
    assert ":serviceTwo" == [':'] + "serviceTwo";
  }

  /** The independent sections are appended after the message's types even
      when the message already names them. */
  lemma IndependentSectionsKeptAsGiven(kind: string, other: string, first: string, second: string)
    requires IsPair(kind, first) && IsPair(other, second) && kind != other
    ensures UniqTopicTypes(Config([other]), kind + [':'] + first + [','] + other + [':'] + second)
      == [kind, other, other]
  {
    var a, b := kind + [':'] + first, other + [':'] + second;
    var message := kind + [':'] + first + [','] + other + [':'] + second;
    assert message == a + [','] + b;
    SplitTwoTokens(a, b);
    TypeOfPair(kind, first);
    TypeOfPair(other, second);
    var types := TokenTypes([a, b]);
    assert types == [kind, other];
    UniqOfDistinct(types);
    assert MessageTypes(message) == [kind, other];
  }
}

=== FILE: topics.dfy ===
/**
 * The records the registry helpers work on. Registry entries and requested
 * topics are both identified by a `name` and a `type`; `type` is a keyword
 * in Dafny, so the field is called `topicType` here.
 */
module Topics {

  /** A requested topic `{name, type}`, and the `{name, type}` projection of
      a registry entry. */
  datatype Topic = Topic(name: string, topicType: string)

  /** One entry of the registry: a name, a type, and the build metadata the
      helpers carry along without reading, as key/value pairs. */
  datatype RegistryEntry = RegistryEntry(name: string, topicType: string, meta: map<string, string>)

  /** `{ name: el.name, type: el.type }`: an entry without its metadata. */
  function Project(e: RegistryEntry): Topic
  {
    Topic(e.name, e.topicType)
  }
}

=== FILE: wildcard.dfy ===
/**
 * `_matchWildcardCondition(str, rule)`: the rule is turned into a regular
 * expression by replacing every `*` with `.*` and anchoring the result
 * (`^…$`), and `str` is tested against it.
 *
 * The model covers rules whose only special character is `*`. The segments
 * between the stars are then matched literally, and each `.*` matches any run
 * of characters that holds no line terminator, since `.` in a JavaScript
 * regular expression without the `s` flag does not match one.
 *
 * The worked examples take their string literals as parameters pinned by
 * `requires`, so the solver keeps them as names and spells them out only in
 * the steps that need their letters.
 */
module Wildcard {
  import opened JsStrings

  /** The characters `.` refuses to match: line feed, carriage return, and
      the line and paragraph separators U+2028 and U+2029. */
  predicate IsLineTerminator(c: char) {
    c == '\n' || c == '\r' || c == '\U{2028}' || c == '\U{2029}'
  }

  /** `s` can be consumed by one `.*`. */
  predicate NoLineTerminator(s: string) {
    forall i :: 0 <= i < |s| ==> !IsLineTerminator(s[i])
  }

  /** Characters with a special meaning in a regular expression, apart from `*`. */
  predicate IsRegexMeta(c: char) {
    c in "\\^$.|?+()[]{}"
  }

  /** A rule whose compiled pattern is a plain glob: no special character but `*`. */
  predicate IsGlobRule(rule: string) {
    forall i :: 0 <= i < |rule| ==> !IsRegexMeta(rule[i])
  }

  /** `_matchWildcardCondition(str, rule)`, read directly on the rule: a star
      either matches nothing or swallows one more character that is not a
      line terminator; any other character matches itself. A rule without a
      star matches exactly itself, so the match is anchored at both ends. */
  function Matches(str: string, rule: string): (r: bool)
    requires IsGlobRule(rule)
    ensures '*' !in rule ==> (r <==> str == rule)
    decreases |str|, |rule|
  {
    if |rule| == 0 then |str| == 0
    else if rule[0] == '*' then
      Matches(str, rule[1..]) || (|str| > 0 && !IsLineTerminator(str[0]) && Matches(str[1..], rule))
    else
      var r := |str| > 0 && str[0] == rule[0] && Matches(str[1..], rule[1..]);
      assert |str| > 0 ==> str == [str[0]] + str[1..];
      assert rule == [rule[0]] + rule[1..];
      r
  }

  /** The strings the anchored pattern `^s0.*s1.* … .*sk$` accepts, for the
      segments `[s0, …, sk]` of a rule split at its stars: `s0`, then a run
      without line terminators, then `s1`, and so on, ending with `sk`. */
  ghost predicate MatchesSegments(str: string, segs: seq<string>)
    requires |segs| >= 1
    decreases |segs|, 1
  {
    if |segs| == 1 then str == segs[0]
    else exists j :: SegmentsSplitAt(str, segs[0], segs[1..], j)
  }

  /** `str` matches the segments `[first] + others` with the first gap
      ending at `j`: it starts with `first`, the characters up to `j` hold
      no line terminator, and the rest matches `others`. */
  ghost predicate SegmentsSplitAt(str: string, first: string, others: seq<string>, j: int)
    requires |others| >= 1
    decreases |others| + 1, 0
  {
    && |first| <= j <= |str|
    && str[..|first|] == first
    && NoLineTerminator(str[|first|..j])
    && MatchesSegments(str[j..], others)
  }

  /** A star-prefixed rule is a glob rule when the rest is. */
  lemma StarRuleIsGlob(rest: string)
    requires IsGlobRule(rest)
    ensures IsGlobRule("*" + rest)
  {
    var rule := "*" + rest;
    forall i | 0 <= i < |rule|
      ensures !IsRegexMeta(rule[i])
    {
      if i > 0 {
        assert rule[i] == rest[i - 1];
      }
    }
  }

  /** Gluing one character without a line terminator to a run without one. */
  lemma NoLineTerminatorCons(c: char, s: string)
    requires !IsLineTerminator(c) && NoLineTerminator(s)
    ensures NoLineTerminator([c] + s)
  {
    var t := [c] + s;
    forall i | 0 <= i < |t|
      ensures !IsLineTerminator(t[i])
    {
      if i > 0 {
        assert t[i] == s[i - 1];
      }
    }
  }

  lemma {:induction false} LeadingStarWitness(str: string, rest: string)
    requires IsGlobRule(rest)
    requires IsGlobRule("*" + rest) && Matches(str, "*" + rest)
    ensures exists j :: 0 <= j <= |str| && NoLineTerminator(str[..j]) && Matches(str[j..], rest)
    decreases |str|
  {
    var rule := "*" + rest;
    assert rule[0] == '*' && rule[1..] == rest;
    if Matches(str, rest) {
      assert str[0..] == str;
      assert NoLineTerminator(str[..0]);
    } else {
      var tail := str[1..];
      LeadingStarWitness(tail, rest);
      var j :| 0 <= j <= |tail| && NoLineTerminator(tail[..j]) && Matches(tail[j..], rest);
      LeadingStarWitnessStep(str, rest, j);
    }
  }

  /** A witness for the string without its first character, moved one place
      on, is a witness for the whole string. */
  lemma LeadingStarWitnessStep(str: string, rest: string, j: int)
    requires IsGlobRule(rest) && |str| > 0 && !IsLineTerminator(str[0])
    requires 0 <= j <= |str| - 1 && NoLineTerminator(str[1..][..j]) && Matches(str[1..][j..], rest)
    ensures 0 <= j + 1 <= |str| && NoLineTerminator(str[..j + 1]) && Matches(str[j + 1..], rest)
  {
    var tail := str[1..];
    assert str[..j + 1] == [str[0]] + tail[..j];
    assert str[j + 1..] == tail[j..];
    NoLineTerminatorCons(str[0], tail[..j]);
  }

  lemma {:induction false} LeadingStarFromWitness(str: string, rest: string, j: int)
    requires IsGlobRule(rest) && IsGlobRule("*" + rest)
    requires 0 <= j <= |str| && NoLineTerminator(str[..j]) && Matches(str[j..], rest)
    ensures Matches(str, "*" + rest)
    decreases j
  {
    var rule := "*" + rest;
    assert rule[0] == '*' && rule[1..] == rest;
    if j == 0 {
      assert str[0..] == str;
    } else {
      var tail := str[1..];
      var prefix := str[..j];
      assert prefix[0] == str[0];
      assert tail[..j - 1] == prefix[1..];
      assert tail[j - 1..] == str[j..];
      LeadingStarFromWitness(tail, rest, j - 1);
    }
  }

  /** A leading star matches any prefix without line terminators. */
  lemma MatchesLeadingStar(str: string, rest: string)
    requires IsGlobRule(rest)
    ensures IsGlobRule("*" + rest)
    ensures Matches(str, "*" + rest) <==>
      exists j :: 0 <= j <= |str| && NoLineTerminator(str[..j]) && Matches(str[j..], rest)
  {
    StarRuleIsGlob(rest);
    if Matches(str, "*" + rest) {
      LeadingStarWitness(str, rest);
    }
    if exists j :: 0 <= j <= |str| && NoLineTerminator(str[..j]) && Matches(str[j..], rest) {
      var j :| 0 <= j <= |str| && NoLineTerminator(str[..j]) && Matches(str[j..], rest);
      LeadingStarFromWitness(str, rest, j);
    }
  }

  lemma SegmentsSplitAtIntro(str: string, first: string, others: seq<string>, j: int)
    requires |others| >= 1 && SegmentsSplitAt(str, first, others, j)
    ensures MatchesSegments(str, [first] + others)
  {
    var segs := [first] + others;
    assert segs[0] == first && segs[1..] == others;
  }

  /** The same two steps for segments given as one sequence. */
  lemma SegmentsSplitAtIntroWhole(str: string, segs: seq<string>, j: int)
    requires |segs| >= 2 && SegmentsSplitAt(str, segs[0], segs[1..], j)
    ensures MatchesSegments(str, segs)
  {
  }

  lemma SegmentsSplitAtElimWhole(str: string, segs: seq<string>) returns (j: int)
    requires |segs| >= 2 && MatchesSegments(str, segs)
    ensures SegmentsSplitAt(str, segs[0], segs[1..], j)
  {
    j :| SegmentsSplitAt(str, segs[0], segs[1..], j);
  }

  lemma SegmentsSplitAtElim(str: string, first: string, others: seq<string>) returns (j: int)
    requires |others| >= 1 && MatchesSegments(str, [first] + others)
    ensures SegmentsSplitAt(str, first, others, j)
  {
    var segs := [first] + others;
    assert segs[0] == first && segs[1..] == others;
    j :| SegmentsSplitAt(str, first, others, j);
  }

  /** Slices of a string with one character put in front. */
  lemma ConsSlices(c: char, t: string, n: nat, j: nat)
    requires n <= j <= |t|
    ensures ([c] + t)[..n + 1] == [c] + t[..n]
    ensures ([c] + t)[n + 1..j + 1] == t[n..j]
    ensures ([c] + t)[j + 1..] == t[j..]
  {
  }

  /** A string that starts with `[c] + s0` starts with `c`, followed by `s0`. */
  lemma HeadSplit(str: string, c: char, s0: string)
    requires |s0| + 1 <= |str| && str[..|s0| + 1] == [c] + s0
    ensures str[0] == c && str[1..][..|s0|] == s0
  {
    assert str[..|s0| + 1][0] == str[0];
    assert str[1..][..|s0|] == str[..|s0| + 1][1..];
  }

  /** A split point for `[c] + first` is one place further on than a split
      point for `first` in the string without its leading `c`. */
  lemma SplitAtConsForward(str: string, c: char, first: string, others: seq<string>, j: int)
    requires |others| >= 1 && SegmentsSplitAt(str, [c] + first, others, j)
    ensures |str| > 0 && str[0] == c && SegmentsSplitAt(str[1..], first, others, j - 1)
  {
    var tail := str[1..];
    HeadSplit(str, c, first);
    assert str == [str[0]] + tail;
    ConsSlices(str[0], tail, |first|, j - 1);
  }

  lemma SplitAtConsBackward(str: string, c: char, first: string, others: seq<string>, j: int)
    requires |others| >= 1 && |str| > 0 && str[0] == c && SegmentsSplitAt(str[1..], first, others, j)
    ensures SegmentsSplitAt(str, [c] + first, others, j + 1)
  {
    var tail := str[1..];
    assert str == [c] + tail;
    ConsSlices(c, tail, |first|, j);
  }

  lemma SegmentsConsCharForward(str: string, c: char, segs: seq<string>)
    requires |segs| >= 2
    requires MatchesSegments(str, [[c] + segs[0]] + segs[1..])
    ensures |str| > 0 && str[0] == c && MatchesSegments(str[1..], segs)
  {
    var j := SegmentsSplitAtElim(str, [c] + segs[0], segs[1..]);
    SplitAtConsForward(str, c, segs[0], segs[1..], j);
    SegmentsSplitAtIntroWhole(str[1..], segs, j - 1);
  }

  lemma SegmentsConsCharBackward(str: string, c: char, segs: seq<string>)
    requires |segs| >= 2
    requires |str| > 0 && str[0] == c && MatchesSegments(str[1..], segs)
    ensures MatchesSegments(str, [[c] + segs[0]] + segs[1..])
  {
    var j := SegmentsSplitAtElimWhole(str[1..], segs);
    SplitAtConsBackward(str, c, segs[0], segs[1..], j);
    SegmentsSplitAtIntro(str, [c] + segs[0], segs[1..], j + 1);
  }

  /** Putting a literal character in front of the first segment. */
  lemma SegmentsConsChar(str: string, c: char, segs: seq<string>)
    requires |segs| >= 1
    ensures MatchesSegments(str, [[c] + segs[0]] + segs[1..]) <==>
      |str| > 0 && str[0] == c && MatchesSegments(str[1..], segs)
  {
    if |segs| == 1 {
      var first := [c] + segs[0];
      assert [[c] + segs[0]] + segs[1..] == [first];
      if str == first {
        assert str[1..] == segs[0];
      }
      if |str| > 0 && str[0] == c && str[1..] == segs[0] {
        assert str == [c] + str[1..];
      }
    } else {
      if MatchesSegments(str, [[c] + segs[0]] + segs[1..]) {
        SegmentsConsCharForward(str, c, segs);
      }
      if |str| > 0 && str[0] == c && MatchesSegments(str[1..], segs) {
        SegmentsConsCharBackward(str, c, segs);
      }
    }
  }

  /** The matcher agrees with the anchored pattern built from the rule's
      segments: `*` becomes `.*` and everything else stands for itself. */
  lemma {:induction false} MatchesIffSegments(str: string, rule: string)
    requires IsGlobRule(rule)
    ensures Matches(str, rule) <==> MatchesSegments(str, Split(rule, '*'))
    decreases |rule|
  {
    if |rule| == 0 {
      assert Split(rule, '*') == [""];
    } else {
      var rest := rule[1..];
      assert IsGlobRule(rest) by {
        forall i | 0 <= i < |rest|
          ensures !IsRegexMeta(rest[i])
        {
          assert rest[i] == rule[i + 1];
        }
      }
      var tail := Split(rest, '*');
      if rule[0] == '*' {
        assert Split(rule, '*') == [""] + tail;
        assert rule == "*" + rest;
        MatchesLeadingStar(str, rest);
        var segs := [""] + tail;
        assert segs[0] == "" && segs[1..] == tail;
        if Matches(str, rule) {
          var j :| 0 <= j <= |str| && NoLineTerminator(str[..j]) && Matches(str[j..], rest);
          MatchesIffSegments(str[j..], rest);
          assert str[0..j] == str[..j];
          assert str[..0] == "";
          SegmentsSplitAtIntroWhole(str, segs, j);
        }
        if MatchesSegments(str, segs) {
          var j := SegmentsSplitAtElimWhole(str, segs);
          MatchesIffSegments(str[j..], rest);
          assert str[0..j] == str[..j];
          assert Matches(str, rule);
        }
      } else {
        assert Split(rule, '*') == [[rule[0]] + tail[0]] + tail[1..];
        SegmentsConsChar(str, rule[0], tail);
        if |str| > 0 {
          MatchesIffSegments(str[1..], rest);
        }
      }
    }
  }

  /** The rule `*` matches every string without a line terminator, and no
      other string. */
  lemma StarMatchesAnyLine(str: string)
    ensures IsGlobRule("*")
    ensures Matches(str, "*") <==> NoLineTerminator(str)
  {
    MatchesLeadingStar(str, "");
    assert "*" + "" == "*";
    assert str[..|str|] == str;
    if Matches(str, "*") {
      var j :| 0 <= j <= |str| && NoLineTerminator(str[..j]) && Matches(str[j..], "");
      assert j == |str|;
    }
    if NoLineTerminator(str) {
      assert str[|str|..] == "";
      assert Matches(str[|str|..], "");
    }
  }

  /** A rule `p*` with a star-free prefix `p` matches the strings that start
      with `p` and continue without a line terminator. */
  lemma {:induction false} PrefixStarMatches(str: string, p: string)
    requires IsGlobRule(p) && '*' !in p
    ensures IsGlobRule(p + "*")
    ensures Matches(str, p + "*") <==>
      |p| <= |str| && str[..|p|] == p && NoLineTerminator(str[|p|..])
    decreases |p|
  {
    var rule := p + "*";
    assert IsGlobRule(rule) by {
      forall i | 0 <= i < |rule|
        ensures !IsRegexMeta(rule[i])
      {
        if i < |p| {
          assert rule[i] == p[i];
        }
      }
    }
    if |p| == 0 {
      assert rule == "*";
      StarMatchesAnyLine(str);
      assert str[..0] == p && str[0..] == str;
    } else {
      var rest := p[1..];
      assert IsGlobRule(rest) by {
        forall i | 0 <= i < |rest|
          ensures !IsRegexMeta(rest[i])
        {
          assert rest[i] == p[i + 1];
        }
      }
      assert '*' !in rest by {
        forall i | 0 <= i < |rest|
          ensures rest[i] != '*'
        {
          assert rest[i] == p[i + 1];
        }
      }
      assert rule[0] == p[0] && rule[1..] == rest + "*";
      if |str| > 0 {
        PrefixStarMatches(str[1..], rest);
        if |p| <= |str| {
          assert str[1..][..|rest|] == str[1..|p|];
          assert str[1..][|rest|..] == str[|p|..];
          assert str[..|p|] == [str[0]] + str[1..|p|];
          assert p == [p[0]] + rest;
        }
      }
    }
  }

  /** Worked example: `service*` selects `serviceOne` and not `toolOne`. */
  lemma ServiceStarExample(service: string, one: string, tool: string)
    requires service == "service" && one == "serviceOne" && tool == "toolOne"
    ensures IsGlobRule(service + "*")
    ensures Matches(one, service + "*")
    ensures !Matches(tool, service + "*")
  {
    PlainService(service);
    PrefixStarMatches(one, service);
    PrefixStarMatches(tool, service);
    ServiceExampleStrings(service, one, tool);
  }

  /** `service` has neither a star nor a regular expression character. */
  lemma PlainService(service: string)
    requires service == "service"
    ensures '*' !in service && IsGlobRule(service)
  {
  }

  /** `serviceOne` is `service` followed by a line, `toolOne` does not start
      with `service`. */
  lemma ServiceExampleStrings(service: string, one: string, tool: string)
    requires service == "service" && one == "serviceOne" && tool == "toolOne"
    ensures |service| <= |one| && one[..|service|] == service && NoLineTerminator(one[|service|..])
    ensures !(|service| <= |tool| && tool[..|service|] == service)
  {
    assert one[|service|..] == "One";
    assert tool[0] != service[0];
  }
}
